=== FILE: README.md ===
# week_goal — the counting and formatting logic of the goal dashboard

`week_goal.py` runs an unattended dashboard. Every minute it does the following:

- It reads the appointment calendar ("apollo") for the current week and for the current month. From each it sums the numbers written after `[実]` in the totals row or in the cells of 22 listed clinics.
- It reads two clinic month pages of the booking calendar ("tomato"). For the seven days of the current week it counts the large bookings (`gross`) and, separately from `gross`, the labels marked remote (`excluded`).
- It writes two HTML pages. Each shows the totals, how far each total is from its target (targets read from `target_values.txt`), an achievement badge once a target is reached, and a title naming the current week number (weeks counted from Monday 2024-12-30) or the month.

This project models that logic in Dafny and proves what it promises.

- `wrappers.dfy`: `Option`.
- `text.dfy` (`Text`): substring search (`in`) and Python's `str.strip` over its whitespace set.
- `decimal.dfy` (`Decimal`): ASCII decimal digits.
  - `str` of a natural and of an integer.
  - `int` of a stripped line.
  - zero padding as in `%Y`/`%m`/`%d`.
  - the greedy digit run of `\d+`.
- `calendar.dfy` (`Calendar`): proleptic Gregorian dates.
  - The day count is Python's `toordinal`, the weekday is `weekday()`, and `+ timedelta(days=k)` is `AddDays`.
  - The week number and the current week's Monday/Sunday.
  - `strftime('%Y-%m-%d')` with its inverse, and the two calendar URLs.
- `apollo.dfy` (`ApolloTotals`):
  - the search for `\[実\](\d+)`;
  - the per-cell "first matching span" rule;
  - `recalc_total_week` and `recalc_total_month`, as loops proved equal to recursive sums.
- `oguchi.dfy` (`OguchiCount`): the label classification of `get_oguchi_value`.
  - The skip rules, the gross and excluded counts, and the lookup of each day's cell.
  - The seven-day scan, a loop over the days around a loop over the labels, with the two `continue`s of the source.
- `dashboard.dfy` (`Dashboard`):
  - `readlines` with universal newlines, and `read_target_values` with its defaults.
  - The values `create_html_content` interpolates: totals, remainders, the plain or badge display of each remainder, and the title. Each has a reader that inverts it.

Inputs the script takes from the outside world are parameters:

- the current date (`now`);
- the DOM, as plain sequences: a week page is whether the date headers are present plus the totals row's cells (each a sequence of span texts), a clinic cell is its optional anchor text plus its span texts, and a booking page is its table cells in document order, each with its link `href`s and its reservation labels (`innerText`, `outerHTML`);
- the content of `target_values.txt` (`None` when the file is missing or not valid UTF-8).

## Model

| member | source | states |
|---|---|---|
| Calendar.Ordinal | week_goal.py:33-35 | `toordinal()`: the days of the years and the months before the date, plus its day, so that 0001-01-01 is day 1; `.days` of a difference of dates is the difference of these counts. |
| Calendar.Weekday | week_goal.py:412 | `weekday()` is in 0..6 (Monday is 0). |
| Calendar.OrdinalInjective | week_goal.py:119-120 | Two valid dates with the same day count are the same date, so dates can be reasoned about through their day count. |
| Calendar.Next | week_goal.py:119 | The day after a valid date is valid and one day later. |
| Calendar.Prev | week_goal.py:414 | The day before a valid date (not the first day of year 1) is valid and one day earlier. |
| Calendar.AddDays | week_goal.py:414-416 | `d + timedelta(days=k)` is a valid date exactly `k` days after `d`. |
| Calendar.EpochIsMonday | week_goal.py:33 | The epoch 2024-12-30 is a valid date and a Monday. |
| Calendar.WeekNumber | week_goal.py:29-37 | The week number `w` is the one with `7*(w-1) <= days since the epoch < 7*w`, i.e. `days // 7 + 1` with floor division (also before the epoch). |
| Calendar.FirstWeek | week_goal.py:33-36 | The epoch and the six days after it are week 1. |
| Calendar.WeekNumberNextWeek | week_goal.py:35-36 | Seven days later the week number is exactly one more. |
| Calendar.WeekNumberMonotone | week_goal.py:35-36 | A later date never has a smaller week number. |
| Calendar.CurrentWeekRange | week_goal.py:406-417 | Monday is `now` minus its weekday in days and Sunday is six days after Monday; both are valid dates. |
| Calendar.WeekRangeBrackets | week_goal.py:410-417 | Monday's weekday is 0, Sunday's is 6, and Monday ≤ now ≤ Sunday. |
| Calendar.MondayIsUnique | week_goal.py:412-414 | Any Monday in the six days up to `now` is the Monday of the range. |
| Calendar.WeekNumberOfRange | week_goal.py:33-36 | Monday is exactly `7*(week-1)` days after the epoch, and every day of the range has the week number of `now`. |
| Calendar.IsoDate | week_goal.py:120 | `strftime('%Y-%m-%d')`: the year zero-padded to four digits, month and day to two, joined by `-`. |
| Calendar.ParseIsoDateOfParts | week_goal.py:120 | A `%Y` year, a two-digit month and a two-digit day naming a real date, joined by dashes, read as that date. |
| Calendar.IsoDateRoundTrip | week_goal.py:120 | `strftime('%Y-%m-%d')` of a valid date reads back as that date. |
| Calendar.ParseIsoDateInverse | week_goal.py:120 | Whatever reads as a date is exactly that date's `%Y-%m-%d` text: the date reader is injective on texts, so it fixes the text and not only the date. |
| Calendar.PaddedYearRejected | week_goal.py:120 | `02024-12-30` is not `%Y-%m-%d` text and reads as nothing. |
| Calendar.WeekUrl | week_goal.py:419-424 | The week URL is the calendar prefix followed by a text that reads as the current Monday; by ParseIsoDateInverse that text is exactly the Monday's `%Y-%m-%d`. |
| Calendar.WeekUrlNamesMonday | week_goal.py:423-424 | The date in the week URL is `d` exactly when `d` is a Monday among the seven days ending with `now`. |
| Calendar.FirstOfMonth | week_goal.py:431 | `replace(day=1)` is a valid date with day 1, `now.day - 1` days before `now`. |
| Calendar.MonthUrl | week_goal.py:426-432 | The month URL is the calendar prefix followed by a text that reads as the first of the current month; by ParseIsoDateInverse that text is exactly that day's `%Y-%m-%d`. |
| Decimal.NatToString | week_goal.py:192-194 | `str(n)`: at least one digit, no leading zero, value `n`, a single digit exactly when `n < 10`. |
| Decimal.NatToStringOfValue | week_goal.py:192-194 | Conversely, a digit string with no superfluous leading zero is `str` of its value: `str` is the only such spelling. |
| Decimal.IntToString | week_goal.py:226 | `str(i)`: a minus sign exactly when `i < 0`, followed by the digits of the magnitude. |
| Decimal.ReadIntText | week_goal.py:226 | A reader that accepts only what `str` writes for an integer: whatever it reads, `str` of the result is the text read. |
| Decimal.ReadIntTextOfIntToString | week_goal.py:226 | `str(i)` is read back as `i` for every integer. |
| Decimal.ParseInt | week_goal.py:166-167 | `int(s)` succeeds only on text starting with a sign or a digit. |
| Decimal.ParseIntOfDigits | week_goal.py:166-167 | An optional sign (`+`, `-` or none) followed by one or more digits reads as their value, negated after `-`; leading zeros are accepted. |
| Decimal.ParseIntShape | week_goal.py:166-167 | Conversely, every text `int(s)` accepts is an optional sign followed by at least one digit, and reads as that digit run's value with the sign applied. |
| Decimal.ParseIntExamples | week_goal.py:166-167 | `int("+7") == 7`, `int("007") == 7`, `int("-0") == 0`. |
| Decimal.ParseIntOfIntToString | week_goal.py:166-167 | `int(str(i)) == i` for every integer. |
| Decimal.ZeroPad | week_goal.py:120 | Zero padding to a width keeps the digits' value and gives `max(width, length)` digits. |
| Decimal.PaddedValue | week_goal.py:120 | Every digit string is `str` of its value zero-padded to its own length, so a fixed-width field has only one spelling per value. |
| Decimal.DigitRunEnd | week_goal.py:63 | The run `\d+` takes from `j` is all digits and ends at the end of the text or at a non-digit. |
| Text.Contains | week_goal.py:134-146 | Python's `sub in s`: some window of `s` spells `sub`. |
| Text.ContainsParts | week_goal.py:134 | Text containing `p + q` contains `p` and `q`. |
| Text.StripLeading | week_goal.py:86 | What remains after the leading whitespace is a suffix, only whitespace was removed, and it does not start with whitespace. |
| Text.StripTrailing | week_goal.py:86 | What remains after the trailing whitespace is a prefix, only whitespace was removed, and it does not end with whitespace. |
| Text.IsSpace | week_goal.py:86 | The characters `str.isspace()` accepts, which `strip()` removes: space, `\t` to `\r`, `\x1c` to `\x1f`, `\x85`, `\xa0` and the Unicode space separators. |
| Text.Strip | week_goal.py:86 | `strip()` is a middle slice with whitespace-only margins whose ends are not whitespace. |
| Text.StripPadded | week_goal.py:166-167 | Stripping a trimmed text padded on the right with whitespace gives it back. |
| ApolloTotals.MatchAt | week_goal.py:63 | The pattern `\[実\](\d+)` matches at position i: `[実]` starts there and a digit follows it. |
| ApolloTotals.FirstMatchFrom | week_goal.py:63 | The scan finds the leftmost position at which `[実]` is followed by a digit, or none exists. |
| ApolloTotals.SearchMarker | week_goal.py:63-65 | `re.search` finds a number exactly when some position matches the pattern. |
| ApolloTotals.FirstMatchIs | week_goal.py:63 | A match with no match before it is the one the search takes. |
| ApolloTotals.SearchMarkerIs | week_goal.py:63-65 | At the first position where `[実]` is followed by a digit, the search returns the value of the maximal digit run after the marker. |
| ApolloTotals.SearchMarkerReadsCount | week_goal.py:63-65 | `before + "[実]" + str(n) + after` reads as `n` when the pattern matches nowhere in `before` and `after` does not continue the digits. |
| ApolloTotals.SearchMarkerExample | week_goal.py:63-65 | `foo [実]12 bar` reads as 12. |
| ApolloTotals.SearchMarkerSkipsOtherTag | week_goal.py:63-65 | `[予]5 [実]3` reads as 3: another bracketed tag before the marker is passed over. |
| ApolloTotals.CellValue | week_goal.py:60-66 | A cell adds the number of its first span in which the pattern matches, or 0 when none does. |
| ApolloTotals.CellValueIsFirstMatch | week_goal.py:61-66 | A cell adds the number of its first span that matches. |
| ApolloTotals.CellValueIgnoresLater | week_goal.py:62-66 | Spans after a matching one never change what a cell adds (the `break`). |
| ApolloTotals.CellValueNoMatch | week_goal.py:62-66 | A cell with no matching span adds 0. |
| ApolloTotals.WeekSumAppend | week_goal.py:60-65 | The sum over cells is additive over consecutive groups of cells. |
| ApolloTotals.ScanCell | week_goal.py:61-66 | The span loop with its `break` yields exactly the cell's first-match number. |
| ApolloTotals.WeekTotal | week_goal.py:44-69 | The weekly total: 0 when no date header or no totals row appears, otherwise the sum of the totals cells' numbers. |
| ApolloTotals.RecalcTotalWeek | week_goal.py:40-69 | The weekly total is the sum of the cells' first-match numbers; it is 0 when the header or the totals row never appears. |
| ApolloTotals.Qualifies | week_goal.py:84-89 | A clinic cell counts when it has a link whose stripped text is one of the 22 listed clinics. |
| ApolloTotals.MonthSumIsWeekRuleOnQualifying | week_goal.py:84-95 | The monthly total is the weekly rule applied to the qualifying cells only. |
| ApolloTotals.RecalcTotalMonth | week_goal.py:71-98 | The monthly loop skips cells without an anchor and sums, by the first-match rule, the cells whose stripped anchor text is one of the 22 clinics. |
| OguchiCount.HasKeyword | week_goal.py:134 | The label text contains one of `包`, `大`, `長`, `非長`, `陰大`. |
| OguchiCount.Skipped | week_goal.py:133-139 | A label is skipped when its text contains `術検` or `ED` and no keyword. |
| OguchiCount.CountsGross | week_goal.py:141-143 | A label adds to `gross` when it is not skipped and its text has a keyword. |
| OguchiCount.CountsExcluded | week_goal.py:145-147 | A label adds to `excluded` when it is not skipped and its markup contains `fa fa-wifi`, whether or not it has a keyword. |
| OguchiCount.SkippedAddsNothing | week_goal.py:133-139 | A label with `術検` or `ED` and no keyword adds to neither count, even if its markup has the remote icon. |
| OguchiCount.CountsAppend | week_goal.py:118-150 | Both counts are additive over consecutive groups of labels. |
| OguchiCount.GrossIsKeywordCount | week_goal.py:133-143 | `gross` is the number of labels with a keyword: no keyword label is ever skipped. |
| OguchiCount.CountsBounded | week_goal.py:129-147 | `gross` plus the skipped labels, and `excluded` plus the skipped labels, are each at most the number of labels. |
| OguchiCount.KeywordsReduce | week_goal.py:142 | Holding one of 包/大/長/非長/陰大 is the same as holding 包, 大 or 長. |
| OguchiCount.RemoteVisitLabel | week_goal.py:133-147 | A `初診` label with the wifi icon counts as excluded and not as gross. |
| OguchiCount.LargeBookingLabel | week_goal.py:133-147 | A `大` label without the icon counts as gross and not as excluded. |
| OguchiCount.CheckUpLabel | week_goal.py:133-135 | A bare `術検` label is skipped. |
| OguchiCount.NetCanBeNegative | week_goal.py:141-155 | A remote label without a keyword gives `gross = 0`, `excluded = 1`, net −1: the net is not clamped. |
| OguchiCount.MixedDayExample | week_goal.py:129-147 | A `大` label, a bare `術検` label and a remote `初診` label give `gross = 1` and `excluded = 1`. |
| OguchiCount.FirstLinking | week_goal.py:123-125 | The index found is that of a cell linking to the date with no linking cell before it, or the end when none follows. |
| OguchiCount.FindCell | week_goal.py:123-125 | The cell found is the first in document order with a link whose `href` contains the date; none is found exactly when no cell has one. |
| OguchiCount.DayOfWeek | week_goal.py:119 | `monday + timedelta(days=k)` is valid and `k` days after Monday. |
| OguchiCount.WeekDates | week_goal.py:118-120 | Seven date texts, the k-th naming Monday plus k days. |
| OguchiCount.WeekDatesDistinct | week_goal.py:118-120 | The seven date texts are pairwise different. |
| OguchiCount.WeekCountsStep | week_goal.py:118-150 | One more day adds exactly that day's counts. |
| OguchiCount.ScanLabels | week_goal.py:129-147 | The label loop with its two `continue`s adds exactly the gross and excluded counts of the labels. |
| OguchiCount.ScanDay | week_goal.py:122-150 | A day adds the counts of the first cell linking to it, and nothing when there is none. |
| OguchiCount.CountWeek | week_goal.py:118-150 | The day loop yields the counts of all labels of the days, in order. |
| OguchiCount.GetOguchiValue | week_goal.py:100-156 | `(gross, excluded, net)` are the counts over the seven days from the current Monday, and `net = gross - excluded`. |
| Dashboard.BreakFrom | week_goal.py:165 | The first line break at or after `i` (or the end), with no break before it. |
| Dashboard.SplitLine | week_goal.py:165 | The text is its first line's body, the line's terminator and the rest; the body has no break, and a lone `\r` is not half of a `\r\n`. |
| Dashboard.SplitLineUnique | week_goal.py:165 | Any such decomposition is the one `SplitLine` finds. |
| Dashboard.Lines | week_goal.py:165 | `readlines()` yields some line exactly when the text is not empty. |
| Dashboard.TranslateBody | week_goal.py:164-165 | Universal-newline translation leaves text without line breaks unchanged. |
| Dashboard.TranslateFirstLine | week_goal.py:164-165 | Translation turns a line's `\n`, `\r` or `\r\n` terminator into `\n` and leaves its body alone. |
| Dashboard.Translate | week_goal.py:164-165 | Text mode with `newline=None`: every `\r\n` and every lone `\r` becomes `\n`, all other characters are kept. |
| Dashboard.LinesConcat | week_goal.py:164-165 | Joining the lines gives the text with every `\r\n` and lone `\r` translated to `\n`, as text mode with the default `newline=None` reads it. |
| Dashboard.LinesShaped | week_goal.py:164-165 | Every line is non-empty with no break before its last character; every line but the last ends in `\n`, and no line keeps a `\r`. |
| Dashboard.ReadTargetValues | week_goal.py:158-172 | A missing file gives the defaults (216, 22); any other result needs at least two lines, and is the pair of integers those two stripped lines read as. |
| Dashboard.TwoLines | week_goal.py:165-167 | The first two lines read from two complete lines and a tail are those lines' bodies, the first ending in `\n`, the second in `\n` unless it had no terminator. |
| Dashboard.ReadTargetsOfLines | week_goal.py:165-168 | Two lines that strip to integers give those integers as the targets. |
| Dashboard.TargetsRoundTrip | week_goal.py:163-168 | Writing `str(a)` and `str(k)` on the first two lines, with any terminators and anything after, reads back `(a, k)`. |
| Dashboard.SingleLineGivesDefaults | week_goal.py:165-172 | A file with one line (with or without its terminator) gives the defaults: `lines[1]` fails. |
| Dashboard.MalformedFirstLineGivesDefaults | week_goal.py:166-172 | A first line that is not an integer gives the defaults. |
| Dashboard.MalformedSecondLineGivesDefaults | week_goal.py:166-172 | A second line that is not an integer gives the defaults. |
| Dashboard.TargetsExample | week_goal.py:163-168 | The file `100\n50\n` gives the targets (100, 50). |
| Dashboard.RemainderDisplay | week_goal.py:191-199 | The badge is shown exactly when the remainder is ≤ 0. |
| Dashboard.ReadDisplay | week_goal.py:191-199 | A badge display reads as a remainder ≤ 0, a plain one as a remainder > 0. |
| Dashboard.ReadDisplayInverse | week_goal.py:191-199 | Whatever reads as a remainder is exactly that remainder's display, so the reader fixes the text shown. |
| Dashboard.PaddedDisplayRejected | week_goal.py:191-199 | `04件` and the badge around `04` are not displays and read as nothing. |
| Dashboard.DisplayRoundTrip | week_goal.py:191-199 | Every display reads back as the remainder it was made from: `★abs(r)件` plus badge for `r <= 0`, `r件` otherwise. |
| Dashboard.Title | week_goal.py:226 | The weekly title ends in `w目標！`, the monthly one in `月目標！`. |
| Dashboard.ReadTitle | week_goal.py:226 | A title that reads at all is longer than its suffix. |
| Dashboard.ReadTitleInverse | week_goal.py:226 | Whatever reads as a page kind and a number is exactly that title. |
| Dashboard.NonCanonicalTitleRejected | week_goal.py:226 | `+5w目標！` and `05月目標！` are not titles and read as nothing. |
| Dashboard.TitleRoundTrip | week_goal.py:226 | Every title reads back as the page kind and the week number or month it shows. |
| Dashboard.CreateHtmlContent | week_goal.py:174-199 | The targets are those read from the file and `ak_total = a_total + k_total`. Each remainder is what is left to reach its target. Each display reads back as its remainder and shows the badge exactly when its total reached its target. The title reads back as the current week number (weekly page) or the current month (monthly page). With ReadDisplayInverse and ReadTitleInverse these fix the displays and the title as texts. |
| Dashboard.SurplusExample | week_goal.py:180-192 | A weekly total of 220 against the default target 216 gives remainder −4 and the badge with `4`. |

## Left out

- Selenium and the browser are not modelled: driver setup, logins, `driver.get`, `refresh`, the `time.sleep` waits, window handles and tab switching. Page contents are inputs instead. The `WebDriverWait` timeouts of `recalc_total_week` appear only as "header or totals row absent gives 0"; that of `recalc_total_month` is not modelled, since an empty clinic list already sums to 0.
- The main polling loop, its 55 s / 60 s pacing, its 890-case console summary, and the HTML files it writes. These are timing and I/O.
- Exceptions raised in the middle of a scan (a stale element, a browser error) are not modelled. The code returns whatever it had accumulated so far (week_goal.py:67-69, 96-98, 152-156). The model makes no "degrades to zero" claim; the partial path itself is not modelled.
- The wall clock is not modelled. `now` is a date parameter. The time of day does not matter: the epoch is at midnight, so `.days` is the difference of day counts.
- Dashboard.CreateHtmlContent: the source reads the clock twice (week number and month). The model uses one `now` for both, so a call straddling midnight at a month's end is not modelled.
- Calendar.Valid: years are unbounded above. Python raises `OverflowError` past year 9999; no such case is modelled.
- Calendar.IsoDate: `%Y` is modelled as always zero-padded to four digits. On Linux (glibc), `%Y` writes years below 1000 unpadded; the model always pads. Years 1000-9999 are written the same way by both.
- Decimal.ParseInt: only ASCII digits with an optional sign. Python's `int()` also accepts other Unicode decimal digits and `_` separators. `\d` in the `[実]` search is likewise restricted to ASCII digits.
- Dashboard.ReadTargetValues: the file content is given already decoded. A UTF-8 decoding error, like a missing file, is the `None` input; reading failures are not distinguished.
- The HTML/CSS template text around the interpolated values is not modelled, beyond the title and the two display strings. It is fixed cosmetic text.
- OguchiCount.FindCell: the XPath lookup is modelled as "the first cell of the page's cell sequence with a matching link". Nesting of table cells inside cells is not modelled.
- Logging, `print` diagnostics and the Tk error dialog are not modelled.

=== FILE: apollo.dfy ===
/**
 * The two appointment-calendar extractors. A table cell is the sequence of
 * the texts of its `<span>` elements; a cell's number is the one written
 * after `[実]` in the first span that has one, read as `re.search(r"\[実\](\d+)")`
 * reads it; the weekly total sums the cells of the totals row, the monthly
 * total sums the clinic cells whose link names one of the 22 listed clinics.
 */
module ApolloTotals {
  import opened Wrappers
  import opened Decimal
  import Text

  /** The literal `[実]` the pattern starts with. */
  const Marker: string := "[実]"

  /** The pattern `\[実\](\d+)` matches at position `i` of `s`. */
  predicate MatchAt(s: string, i: int)
  {
    0 <= i && i + 4 <= |s| && s[i..i + 3] == Marker && IsDigit(s[i + 3])
  }

  /** The leftmost position at or after `i` where the pattern matches, as `re.search` scans. */
  function FirstMatchFrom(s: string, i: nat): (p: Option<nat>)
    requires i <= |s|
    ensures p.Some? ==> i <= p.value && MatchAt(s, p.value)
    ensures p.Some? ==> forall q :: i <= q < p.value ==> !MatchAt(s, q)
    ensures p.None? ==> forall q :: i <= q ==> !MatchAt(s, q)
    decreases |s| - i
  {
    if i + 4 > |s| then None
    else if MatchAt(s, i) then Some(i)
    else FirstMatchFrom(s, i + 1)
  }

  /**
   * `re.search(r"\[実\](\d+)", s)` followed by `int(match.group(1))`: the number
   * spelled by the greedy digit run after the leftmost `[実]` that has a digit after it.
   */
  function SearchMarker(s: string): (v: Option<nat>)
    ensures v.Some? <==> exists p :: MatchAt(s, p)
  {
    match FirstMatchFrom(s, 0)
    case None => None
    case Some(p) => Some(Value(s[p + 3..DigitRunEnd(s, p + 3)]))
  }

  /** The scan stops at the first match: a match with none before it is the one found. */
  lemma FirstMatchIs(s: string, p: nat)
    requires MatchAt(s, p)
    requires forall q :: 0 <= q < p ==> !MatchAt(s, q)
    ensures FirstMatchFrom(s, 0) == Some(p)
  {
  }

  /**
   * What the search returns: at the first match, the number spelled by the
   * whole run of digits after `[実]`.
   */
  lemma SearchMarkerIs(s: string, p: nat, e: nat)
    requires MatchAt(s, p)
    requires forall q | 0 <= q < p :: !MatchAt(s, q)
    requires p + 3 < e <= |s| && AllDigits(s[p + 3..e])
    requires e == |s| || !IsDigit(s[e])
    ensures SearchMarker(s) == Some(Value(s[p + 3..e]))
  {
    FirstMatchIs(s, p);
    forall k | p + 3 <= k < e
      ensures IsDigit(s[k])
    {
      assert s[k] == s[p + 3..e][k - (p + 3)];
    }
    RunEndsAt(s, p + 3, e);
  }

  /** No match can start inside text that has no `[` in it. */
  lemma NoMatchInside(s: string, before: string)
    requires |before| <= |s| && s[..|before|] == before && '[' !in before
    ensures forall q :: 0 <= q < |before| ==> !MatchAt(s, q)
  {
    forall q | 0 <= q < |before|
      ensures !MatchAt(s, q)
    {
      assert s[q] == before[q];
      if q + 4 <= |s| { assert s[q..q + 3][0] == s[q]; }
    }
  }

  /**
   * A count written after `[実]` is read back: text in which the pattern does
   * not match before the marker, the digits, then anything that does not
   * continue the digits.
   */
  lemma SearchMarkerReadsCount(before: string, n: nat, after: string)
    requires forall q | 0 <= q < |before| :: !MatchAt(before + Marker + NatToString(n) + after, q)
    requires after == [] || !IsDigit(after[0])
    ensures SearchMarker(before + Marker + NatToString(n) + after) == Some(n)
  {
    var digits := NatToString(n);
    var s := before + Marker + digits + after;
    var p := |before|;
    assert s[p..p + 3] == Marker;
    assert s[p + 3] == digits[0];
    var e := p + 3 + |digits|;
    assert s[p + 3..e] == digits;
    SearchMarkerIs(s, p, e);
  }

  /** `foo [実]12 bar` reads as 12. */
  lemma SearchMarkerExample()
    ensures SearchMarker("foo [実]12 bar") == Some(12)
  {
    assert NatToString(12) == NatToString(1) + "2" == "12";
    assert "foo [実]12 bar" == "foo " + Marker + NatToString(12) + " bar";
    NoMatchInside("foo [実]12 bar", "foo ");
    SearchMarkerReadsCount("foo ", 12, " bar");
  }

  /** Another bracketed tag before `[実]` is passed over: `[予]5 [実]3` reads as 3. */
  lemma SearchMarkerSkipsOtherTag()
    ensures SearchMarker("[予]5 [実]3") == Some(3)
  {
    var s := "[予]5 [実]3";
    assert s == "[予]5 " + Marker + NatToString(3) + "";
    forall q | 0 <= q < 5
      ensures !MatchAt(s, q)
    {
      if q + 4 <= |s| {
        assert s[q..q + 3][0] == s[q] && s[q..q + 3][1] == s[q + 1];
      }
    }
    SearchMarkerReadsCount("[予]5 ", 3, "");
  }

  /** The digit run from `j` ends at `e` when `s[j..e]` is all digits and `s[e]` is not one. */
  lemma {:induction false} RunEndsAt(s: string, j: nat, e: nat)
    requires j <= e <= |s|
    requires forall k | j <= k < e :: IsDigit(s[k])
    requires e == |s| || !IsDigit(s[e])
    ensures DigitRunEnd(s, j) == e
    decreases e - j
  {
    if j < e {
      RunEndsAt(s, j + 1, e);
    }
  }

  /** The number a cell adds: that of its first span the pattern matches, or 0. */
  function CellValue(spans: seq<string>): nat
  {
    if spans == [] then 0
    else match SearchMarker(spans[0])
      case Some(v) => v
      case None => CellValue(spans[1..])
  }

  /** A cell's number is the one in its first matching span. */
  lemma {:induction false} CellValueIsFirstMatch(spans: seq<string>, k: nat)
    requires k < |spans| && SearchMarker(spans[k]).Some?
    requires forall j | 0 <= j < k :: SearchMarker(spans[j]).None?
    ensures CellValue(spans) == SearchMarker(spans[k]).value
  {
    if k > 0 {
      CellValueIsFirstMatch(spans[1..], k - 1);
    }
  }

  /** Once a span has matched, whatever spans follow it are never read. */
  lemma {:induction false} CellValueIgnoresLater(spans: seq<string>, later: seq<string>)
    requires exists j | 0 <= j < |spans| :: SearchMarker(spans[j]).Some?
    ensures CellValue(spans + later) == CellValue(spans)
  {
    assert (spans + later)[0] == spans[0];
    if SearchMarker(spans[0]).None? {
      assert (spans + later)[1..] == spans[1..] + later;
      var j :| 0 <= j < |spans| && SearchMarker(spans[j]).Some?;
      assert spans[1..][j - 1] == spans[j];
      CellValueIgnoresLater(spans[1..], later);
    }
  }

  /** A cell none of whose spans matches adds nothing. */
  lemma {:induction false} CellValueNoMatch(spans: seq<string>)
    requires forall j | 0 <= j < |spans| :: SearchMarker(spans[j]).None?
    ensures CellValue(spans) == 0
  {
    if spans != [] {
      CellValueNoMatch(spans[1..]);
    }
  }

  /** The weekly rule: the sum of the cells' numbers. */
  function WeekSum(cells: seq<seq<string>>): nat
  {
    if cells == [] then 0 else WeekSum(cells[..|cells| - 1]) + CellValue(cells[|cells| - 1])
  }

  /** The weekly sum splits over any division of the row. */
  lemma {:induction false} WeekSumAppend(a: seq<seq<string>>, b: seq<seq<string>>)
    ensures WeekSum(a + b) == WeekSum(a) + WeekSum(b)
    decreases |b|
  {
    if b == [] {
      assert a + b == a;
    } else {
      var b' := b[..|b| - 1];
      assert (a + b)[..|a + b| - 1] == a + b';
      WeekSumAppend(a, b');
    }
  }

  /**
   * The week page as far as `recalc_total_week` looks: whether any sticky
   * date header appears, and the `td.total sticky` cells of the totals row
   * if that row appears at all.
   */
  datatype WeekPage = WeekPage(hasDateHeaders: bool, totalsRow: Option<seq<seq<string>>>)

  /** What `recalc_total_week` returns: 0 when a wait times out, else the weekly sum. */
  function WeekTotal(page: WeekPage): nat
  {
    if page.hasDateHeaders && page.totalsRow.Some? then WeekSum(page.totalsRow.value) else 0
  }

  /** The first-match scan of one cell, stopping at the first span that matches. */
  method ScanCell(spans: seq<string>) returns (v: nat)
    ensures v == CellValue(spans)
  {
    v := 0;
    var j := 0;
    while j < |spans|
      invariant 0 <= j <= |spans|
      invariant CellValue(spans) == CellValue(spans[j..])
    {
      var m := SearchMarker(spans[j]);
      if m.Some? {
        v := m.value;
        break;
      }
      assert spans[j..][1..] == spans[j + 1..];
      j := j + 1;
    }
  }

  /** `recalc_total_week()` on a page given as data. */
  method RecalcTotalWeek(page: WeekPage) returns (total: nat)
    ensures total == WeekTotal(page)
  {
    total := 0;
    if !page.hasDateHeaders || page.totalsRow.None? {
      return;
    }
    var cells := page.totalsRow.value;
    for i := 0 to |cells|
      invariant total == WeekSum(cells[..i])
    {
      var v := ScanCell(cells[i]);
      assert cells[..i + 1][..i] == cells[..i];
      total := total + v;
    }
    assert cells[..|cells|] == cells;
  }

  /** The 22 clinics whose cells count toward the monthly total. */
  const TargetClinics: seq<string> := [
    "札幌院", "仙台院", "宇都宮", "高崎院", "大宮院", "柏院", "船橋院",
    "新宿院", "新橋院", "神田院", "立川院", "横浜院", "静岡院", "名古屋院", "梅田院",
    "心斎橋", "なんば院", "神戸院", "高松", "広島院", "博多", "天神"
  ]

  /** A `.clinic` element: the text of its first link, if it has one, and its span texts. */
  datatype ClinicCell = ClinicCell(anchor: Option<string>, spans: seq<string>)

  /** The cell has a link whose stripped text is a listed clinic. */
  predicate Qualifies(c: ClinicCell)
  {
    c.anchor.Some? && Text.Strip(c.anchor.value) in TargetClinics
  }

  /** The monthly rule: the sum of the numbers of the qualifying cells. */
  function MonthSum(cells: seq<ClinicCell>): nat
  {
    if cells == [] then 0
    else
      var last := cells[|cells| - 1];
      MonthSum(cells[..|cells| - 1]) + (if Qualifies(last) then CellValue(last.spans) else 0)
  }

  /** The span lists of the qualifying cells, in page order. */
  function QualifyingSpans(cells: seq<ClinicCell>): (r: seq<seq<string>>)
    ensures |r| <= |cells|
  {
    if cells == [] then []
    else
      var last := cells[|cells| - 1];
      QualifyingSpans(cells[..|cells| - 1]) + (if Qualifies(last) then [last.spans] else [])
  }

  /** The monthly total is the weekly rule applied to the qualifying cells alone. */
  lemma {:induction false} MonthSumIsWeekRuleOnQualifying(cells: seq<ClinicCell>)
    ensures MonthSum(cells) == WeekSum(QualifyingSpans(cells))
  {
    if cells != [] {
      var front := cells[..|cells| - 1];
      var last := cells[|cells| - 1];
      MonthSumIsWeekRuleOnQualifying(front);
      var extra := if Qualifies(last) then [last.spans] else [];
      WeekSumAppend(QualifyingSpans(front), extra);
      if Qualifies(last) {
        assert WeekSum(extra) == WeekSum([]) + CellValue(last.spans) by {
          assert extra[..0] == [];
        }
      }
    }
  }

  /** `recalc_total_month()` on the page's `.clinic` cells given as data. */
  method RecalcTotalMonth(cells: seq<ClinicCell>) returns (total: nat)
    ensures total == MonthSum(cells)
  {
    total := 0;
    for i := 0 to |cells|
      invariant total == MonthSum(cells[..i])
    {
      var cell := cells[i];
      assert cells[..i + 1][..i] == cells[..i];
      if cell.anchor.None? {
        continue;
      }
      var name := Text.Strip(cell.anchor.value);
      if name in TargetClinics {
        var v := ScanCell(cell.spans);
        total := total + v;
      }
    }
    assert cells[..|cells|] == cells;
  }
}

=== FILE: calendar.dfy ===
/**
 * The date arithmetic of the dashboard: the week number counted from a
 * fixed Monday, the Monday-to-Sunday range around "now", the `YYYY-MM-DD`
 * text of a date, and the two calendar URLs built from it.
 *
 * A date is a proleptic Gregorian (year, month, day) as in Python's
 * `datetime`; its day count is Python's `toordinal()` (1 for 0001-01-01),
 * and its weekday is `(ordinal + 6) % 7` with Monday = 0, as CPython
 * computes `weekday()`.
 */
module Calendar {
  import opened Wrappers
  import opened Decimal

  datatype Date = Date(year: int, month: int, day: int)

  predicate IsLeap(y: int)
  {
    y % 4 == 0 && (y % 100 != 0 || y % 400 == 0)
  }

  function DaysInMonth(y: int, m: int): int
    requires 1 <= m <= 12
  {
    if m == 2 then (if IsLeap(y) then 29 else 28)
    else if m == 4 || m == 6 || m == 9 || m == 11 then 30
    else 31
  }

  function DaysInYear(y: int): int
  {
    if IsLeap(y) then 366 else 365
  }

  /** A date `datetime` accepts, except that years are not capped at 9999. */
  predicate Valid(d: Date)
  {
    1 <= d.year && 1 <= d.month <= 12 && 1 <= d.day <= DaysInMonth(d.year, d.month)
  }

  /** Days in the years before `y`, as CPython's `_days_before_year`. */
  function DaysBeforeYear(y: int): int
  {
    var n := y - 1;
    n * 365 + n / 4 - n / 100 + n / 400
  }

  /** Days in the months of year `y` before month `m`, as CPython's `_days_before_month`. */
  function DaysBeforeMonth(y: int, m: int): int
    requires 1 <= m <= 12
  {
    [0, 31, 59, 90, 120, 151, 181, 212, 243, 273, 304, 334][m - 1]
      + (if m > 2 && IsLeap(y) then 1 else 0)
  }

  /** `date.toordinal()`: the day count with 0001-01-01 as day 1. */
  function Ordinal(d: Date): int
    requires 1 <= d.month <= 12
  {
    DaysBeforeYear(d.year) + DaysBeforeMonth(d.year, d.month) + d.day
  }

  /** The weekday of day count `o`: 0 for Monday through 6 for Sunday. */
  function WeekdayOf(o: int): (w: int)
    ensures 0 <= w < 7
  {
    (o + 6) % 7
  }

  /** `date.weekday()`. */
  function Weekday(d: Date): (w: int)
    requires Valid(d)
    ensures 0 <= w < 7
  {
    WeekdayOf(Ordinal(d))
  }

  /** Stepping back from day count `o` by its weekday lands on a Monday, and six days on is a Sunday. */
  lemma BackToMonday(o: int, m: int, e: int)
    requires m == o - WeekdayOf(o) && e == m + 6
    ensures WeekdayOf(m) == 0 && WeekdayOf(e) == 6
  {
  }

  /** Two Mondays less than a week apart are the same day. */
  lemma SameMonday(a: int, b: int)
    requires WeekdayOf(a) == 0 && WeekdayOf(b) == 0 && b - 6 <= a <= b + 6
    ensures a == b
  {
  }

  /**
   * Whole weeks counted from one Monday `e`: the Monday `m` starts its week
   * `(m - e) / 7`, which is a whole number of weeks, and each of its seven days
   * falls in that same week.
   */
  lemma WeekOfMonday(m: int, x: int)
    requires WeekdayOf(m) == 0 && m <= x <= m + 6
    ensures m - EpochOrdinal == 7 * (WeekIndex(m) - 1)
    ensures WeekIndex(x) == WeekIndex(m)
  {
    assert WeekdayOf(EpochOrdinal) == 0;
  }

  lemma MonthStep(y: int, m: int)
    requires 1 <= m < 12
    ensures DaysBeforeMonth(y, m + 1) == DaysBeforeMonth(y, m) + DaysInMonth(y, m)
  {
  }

  /** Each year adds its own length to the count of days before it. */
  lemma YearStep(y: int)
    ensures DaysBeforeYear(y + 1) == DaysBeforeYear(y) + DaysInYear(y)
  {
    var n := y - 1;
    assert (n + 1) / 4 == n / 4 + (if y % 4 == 0 then 1 else 0);
    assert (n + 1) / 100 == n / 100 + (if y % 100 == 0 then 1 else 0);
    assert (n + 1) / 400 == n / 400 + (if y % 400 == 0 then 1 else 0);
    if y % 400 == 0 {
      assert y % 100 == 0 && y % 4 == 0;
    } else if y % 100 == 0 {
      assert y % 4 == 0;
    }
  }

  /** Days before a later year exceed those before an earlier one by at least 365 a year. */
  lemma {:induction false} DaysBeforeYearGrows(y1: int, y2: int)
    requires y1 <= y2
    ensures DaysBeforeYear(y1) + 365 * (y2 - y1) <= DaysBeforeYear(y2)
    decreases y2 - y1
  {
    if y1 < y2 {
      DaysBeforeYearGrows(y1, y2 - 1);
      YearStep(y2 - 1);
    }
  }

  /** Every valid date lies inside its own year's run of day counts. */
  lemma OrdinalWithinYear(d: Date)
    requires Valid(d)
    ensures DaysBeforeYear(d.year) < Ordinal(d) <= DaysBeforeYear(d.year + 1)
  {
    YearStep(d.year);
  }

  /** Day counts are at least 1: 0001-01-01 is the first day. */
  lemma OrdinalPositive(d: Date)
    requires Valid(d)
    ensures Ordinal(d) >= 1
  {
    DaysBeforeYearGrows(1, d.year);
  }

  /** Two valid dates with the same day count are the same date. */
  lemma OrdinalInjective(d1: Date, d2: Date)
    requires Valid(d1) && Valid(d2)
    requires Ordinal(d1) == Ordinal(d2)
    ensures d1 == d2
  {
    OrdinalWithinYear(d1);
    OrdinalWithinYear(d2);
    if d1.year < d2.year {
      DaysBeforeYearGrows(d1.year + 1, d2.year);
    } else if d2.year < d1.year {
      DaysBeforeYearGrows(d2.year + 1, d1.year);
    }
    assert d1.year == d2.year;
  }

  /** The day after `d`. */
  function Next(d: Date): (r: Date)
    requires Valid(d)
    ensures Valid(r) && Ordinal(r) == Ordinal(d) + 1
  {
    if d.day < DaysInMonth(d.year, d.month) then
      Date(d.year, d.month, d.day + 1)
    else if d.month < 12 then
      MonthStep(d.year, d.month);
      Date(d.year, d.month + 1, 1)
    else
      YearStep(d.year);
      Date(d.year + 1, 1, 1)
  }

  /** The day before `d`, which exists for every date after 0001-01-01. */
  function Prev(d: Date): (r: Date)
    requires Valid(d) && Ordinal(d) > 1
    ensures Valid(r) && Ordinal(r) == Ordinal(d) - 1
  {
    if d.day > 1 then
      Date(d.year, d.month, d.day - 1)
    else if d.month > 1 then
      MonthStep(d.year, d.month - 1);
      Date(d.year, d.month - 1, DaysInMonth(d.year, d.month - 1))
    else
      YearStep(d.year - 1);
      Date(d.year - 1, 12, 31)
  }

  /** `d + timedelta(days=k)`: the date `k` days later (earlier when `k` is negative). */
  function AddDays(d: Date, k: int): (r: Date)
    requires Valid(d) && Ordinal(d) + k >= 1
    ensures Valid(r) && Ordinal(r) == Ordinal(d) + k
    decreases if k < 0 then -k else k
  {
    if k == 0 then d
    else if k > 0 then AddDays(Next(d), k - 1)
    else AddDays(Prev(d), k + 1)
  }

  /** Week 1 starts on Monday 2024-12-30. */
  const Epoch: Date := Date(2024, 12, 30)

  /** The epoch's day count, `date(2024, 12, 30).toordinal()`. */
  const EpochOrdinal: int := 739250

  lemma EpochIsMonday()
    ensures Valid(Epoch) && Ordinal(Epoch) == EpochOrdinal && Weekday(Epoch) == 0
  {
  }

  /** The week of day count `o`: whole weeks since the epoch, rounded down, plus one. */
  function WeekIndex(o: int): int
  {
    (o - EpochOrdinal) / 7 + 1
  }

  /** `calculate_week_number()`: the week that holds "now", week 1 being the epoch's. */
  function WeekNumber(now: Date): (w: int)
    requires Valid(now)
    ensures 7 * (w - 1) <= Ordinal(now) - Ordinal(Epoch) < 7 * w
  {
    EpochIsMonday();
    WeekIndex(Ordinal(now))
  }

  /** The epoch and the six days after it are week 1. */
  lemma FirstWeek(k: int)
    requires 0 <= k < 7
    ensures Ordinal(Epoch) + k >= 1
    ensures WeekNumber(AddDays(Epoch, k)) == 1
  {
    EpochIsMonday();
  }

  /** Moving "now" a week later moves the week number up by exactly one. */
  lemma WeekNumberNextWeek(now: Date)
    requires Valid(now)
    ensures WeekNumber(AddDays(now, 7)) == WeekNumber(now) + 1
  {
    OrdinalPositive(now);
  }

  /** The week number never goes down as "now" moves forward. */
  lemma WeekNumberMonotone(a: Date, b: Date)
    requires Valid(a) && Valid(b) && Ordinal(a) <= Ordinal(b)
    ensures WeekNumber(a) <= WeekNumber(b)
  {
  }

  datatype WeekRange = WeekRange(monday: Date, sunday: Date)

  /**
   * `get_current_week_range()`: "now" minus its weekday, and six days after that.
   * `WeekRangeBrackets` proves that this is the Monday-to-Sunday week holding "now".
   */
  function CurrentWeekRange(now: Date): (r: WeekRange)
    requires Valid(now)
    ensures Valid(r.monday) && Valid(r.sunday)
    ensures Ordinal(r.monday) == Ordinal(now) - Weekday(now)
    ensures Ordinal(r.sunday) == Ordinal(r.monday) + 6
  {
    OrdinalPositive(now);
    var monday := AddDays(now, -Weekday(now));
    WeekRange(monday, AddDays(monday, 6))
  }

  /** The range starts on a Monday, ends on the Sunday after it, and holds "now". */
  lemma WeekRangeBrackets(now: Date)
    requires Valid(now)
    ensures var r := CurrentWeekRange(now);
      && Weekday(r.monday) == 0
      && Weekday(r.sunday) == 6
      && Ordinal(r.monday) <= Ordinal(now) <= Ordinal(r.sunday)
  {
    var r := CurrentWeekRange(now);
    BackToMonday(Ordinal(now), Ordinal(r.monday), Ordinal(r.sunday));
  }

  /** The Monday of the range is the only Monday among the seven days ending at "now". */
  lemma MondayIsUnique(now: Date, d: Date)
    requires Valid(now) && Valid(d)
    requires Weekday(d) == 0 && Ordinal(now) - 6 <= Ordinal(d) <= Ordinal(now)
    ensures d == CurrentWeekRange(now).monday
  {
    var monday := CurrentWeekRange(now).monday;
    EpochIsMonday();
    WeekRangeBrackets(now);
    SameMonday(Ordinal(d), Ordinal(monday));
    OrdinalInjective(d, monday);
  }

  /**
   * Because the epoch is a Monday, the week number labels a whole
   * Monday-to-Sunday week: the Monday is exactly `7 * (week - 1)` days after
   * the epoch, and every day of the range has the week number of "now".
   */
  lemma WeekNumberOfRange(now: Date, x: Date)
    requires Valid(now) && Valid(x)
    requires Ordinal(CurrentWeekRange(now).monday) <= Ordinal(x) <= Ordinal(CurrentWeekRange(now).sunday)
    ensures Ordinal(CurrentWeekRange(now).monday) - Ordinal(Epoch) == 7 * (WeekNumber(now) - 1)
    ensures WeekNumber(x) == WeekNumber(now)
  {
    var monday := CurrentWeekRange(now).monday;
    EpochIsMonday();
    WeekRangeBrackets(now);
    WeekOfMonday(Ordinal(monday), Ordinal(x));
    WeekOfMonday(Ordinal(monday), Ordinal(now));
  }

  /** `strftime('%Y-%m-%d')`: year padded to four digits, month and day to two. */
  function IsoDate(d: Date): string
    requires Valid(d)
  {
    ZeroPad(NatToString(d.year), 4) + "-" + ZeroPad(NatToString(d.month), 2) + "-" + ZeroPad(NatToString(d.day), 2)
  }

  /** A year as `%Y` writes it: four digits, or more without a leading zero. */
  predicate IsYearText(y: string)
  {
    AllDigits(y) && (|y| == 4 || (|y| > 4 && y[0] != '0'))
  }

  /**
   * The inverse of `IsoDate`: accepts exactly the texts `IsoDate` writes.
   * The year part is everything before the last six characters and must be
   * written as `%Y` is modelled here; month and day are two digits each; the
   * date must exist.
   */
  function ParseIsoDate(s: string): Option<Date>
  {
    if |s| >= 10 && s[|s| - 6] == '-' && s[|s| - 3] == '-'
       && IsYearText(s[..|s| - 6]) && AllDigits(s[|s| - 5..|s| - 3]) && AllDigits(s[|s| - 2..])
    then
      var d := Date(Value(s[..|s| - 6]), Value(s[|s| - 5..|s| - 3]), Value(s[|s| - 2..]));
      if Valid(d) then Some(d) else None
    else None
  }

  /** A `%Y` year, a two-digit month and day naming a real date, joined by dashes, read back. */
  lemma ParseIsoDateOfParts(y: string, m: string, d: string)
    requires IsYearText(y) && AllDigits(m) && AllDigits(d)
    requires |m| == 2 && |d| == 2
    requires Valid(Date(Value(y), Value(m), Value(d)))
    ensures ParseIsoDate(y + "-" + m + "-" + d) == Some(Date(Value(y), Value(m), Value(d)))
  {
    var s := y + "-" + m + "-" + d;
    assert |s| == |y| + 6;
    assert s[|y|] == '-' && s[|y| + 3] == '-';
    assert s[..|s| - 6] == y;
    assert s[|s| - 5..|s| - 3] == m;
    assert s[|s| - 2..] == d;
  }

  /** The date text names the date: reading it back gives the same date. */
  lemma IsoDateRoundTrip(d: Date)
    requires Valid(d)
    ensures ParseIsoDate(IsoDate(d)) == Some(d)
  {
    NatToStringBelowHundred(d.month);
    NatToStringBelowHundred(d.day);
    var y := NatToString(d.year);
    assert |y| > 4 ==> ZeroPad(y, 4) == y && y[0] != '0';
    ParseIsoDateOfParts(ZeroPad(y, 4), ZeroPad(NatToString(d.month), 2), ZeroPad(NatToString(d.day), 2));
  }

  /** Only date texts are read: whatever reads as a date is exactly that date's `%Y-%m-%d` text. */
  lemma ParseIsoDateInverse(s: string)
    requires ParseIsoDate(s).Some?
    ensures Valid(ParseIsoDate(s).value) && IsoDate(ParseIsoDate(s).value) == s
  {
    var y, m, d := s[..|s| - 6], s[|s| - 5..|s| - 3], s[|s| - 2..];
    assert s == y + "-" + m + "-" + d;
    PaddedValue(m);
    PaddedValue(d);
    if |y| == 4 {
      PaddedValue(y);
    } else {
      NatToStringOfValue(y);
    }
  }

  /** A year padded beyond four digits is not a `%Y` year: `02024-12-30` reads as nothing. */
  lemma PaddedYearRejected()
    ensures ParseIsoDate("02024-12-30") == None
  {
    var s := "02024-12-30";
    assert s[..|s| - 6] == "02024";
  }

  const WeekUrlPrefix: string := "https://apollo-scedure77.net/CAL/week.php?w="

  /** `get_week_url()`: the calendar page of the week, named by the Monday of its range. */
  function WeekUrl(now: Date): (url: string)
    requires Valid(now)
    ensures |url| > |WeekUrlPrefix| && url[..|WeekUrlPrefix|] == WeekUrlPrefix
    ensures ParseIsoDate(url[|WeekUrlPrefix|..]) == Some(CurrentWeekRange(now).monday)
  {
    var monday := CurrentWeekRange(now).monday;
    IsoDateRoundTrip(monday);
    var url := WeekUrlPrefix + IsoDate(monday);
    assert url[|WeekUrlPrefix|..] == IsoDate(monday);
    url
  }

  /** The date in the week URL is the one Monday among the seven days ending at "now". */
  lemma WeekUrlNamesMonday(now: Date, d: Date)
    requires Valid(now) && Valid(d)
    ensures ParseIsoDate(WeekUrl(now)[|WeekUrlPrefix|..]) == Some(d)
        <==> Weekday(d) == 0 && Ordinal(now) - 6 <= Ordinal(d) <= Ordinal(now)
  {
    var monday := CurrentWeekRange(now).monday;
    EpochIsMonday();
    WeekRangeBrackets(now);
    if Weekday(d) == 0 && Ordinal(now) - 6 <= Ordinal(d) <= Ordinal(now) {
      MondayIsUnique(now, d);
    }
  }

  /** `now.replace(day=1)`: the first of the current month. */
  function FirstOfMonth(now: Date): (r: Date)
    requires Valid(now)
    ensures Valid(r) && r.day == 1
    ensures Ordinal(r) == Ordinal(now) - (now.day - 1)
  {
    Date(now.year, now.month, 1)
  }

  /** `get_month_url()`: the same calendar page, opened at the first of the month. */
  function MonthUrl(now: Date): (url: string)
    requires Valid(now)
    ensures |url| > |WeekUrlPrefix| && url[..|WeekUrlPrefix|] == WeekUrlPrefix
    ensures ParseIsoDate(url[|WeekUrlPrefix|..]) == Some(Date(now.year, now.month, 1))
  {
    var first := FirstOfMonth(now);
    IsoDateRoundTrip(first);
    var url := WeekUrlPrefix + IsoDate(first);
    assert url[|WeekUrlPrefix|..] == IsoDate(first);
    url
  }
}

=== FILE: dashboard.dfy ===
/**
 * The dashboard builder: reading the two targets from `target_values.txt`
 * and computing what `create_html_content` interpolates into the page — the
 * title, the combined total, the two remainders and how each remainder is
 * displayed (a plain count still to go, or the achievement badge with the
 * surplus). The file is given as its decoded content, `None` when it is
 * missing or cannot be decoded.
 */
module Dashboard {
  import opened Wrappers
  import opened Decimal
  import opened Text
  import opened Calendar

  /** A line break as universal-newline reading sees it. */
  predicate IsBreak(c: char)
  {
    c == '\n' || c == '\r'
  }

  predicate NoBreaks(s: string)
  {
    forall k | 0 <= k < |s| :: !IsBreak(s[k])
  }

  /** The ends a line may have: none (last line), `\n`, `\r` or `\r\n`. */
  predicate IsTerminator(t: string)
  {
    t == "" || t == "\n" || t == "\r" || t == "\r\n"
  }

  /**
   * `body + term` is a complete first line of `body + term + rest`: the body
   * holds no break, a missing terminator ends the text, and a lone `\r` is
   * not the first half of a `\r\n`.
   */
  predicate IsFirstLine(body: string, term: string, rest: string)
  {
    && NoBreaks(body)
    && IsTerminator(term)
    && (term == "" ==> rest == [])
    && (term == "\r" ==> rest == [] || rest[0] != '\n')
  }

  /** The index of the first break at or after `i`, or `|s|`. */
  function BreakFrom(s: string, i: nat): (b: nat)
    requires i <= |s|
    ensures i <= b <= |s|
    ensures NoBreaks(s[i..b])
    ensures b < |s| ==> IsBreak(s[b])
    decreases |s| - i
  {
    if i == |s| || IsBreak(s[i]) then i
    else
      var b := BreakFrom(s, i + 1);
      assert s[i..b] == [s[i]] + s[i + 1..b];
      b
  }

  /** A break-free stretch ended by a break or by the end of the text is what `BreakFrom` finds. */
  lemma {:induction false} BreakFromIs(s: string, i: nat, p: nat)
    requires i <= p <= |s| && NoBreaks(s[i..p])
    requires p == |s| || IsBreak(s[p])
    ensures BreakFrom(s, i) == p
    decreases p - i
  {
    if i < p {
      assert s[i..p][0] == s[i];
      assert s[i + 1..p] == s[i..p][1..];
      BreakFromIs(s, i + 1, p);
    }
  }

  datatype Line = Line(body: string, term: string)

  /** The first line of `s` (its body and its terminator) and what follows it. */
  function SplitLine(s: string): (r: (Line, string))
    ensures r.0.body + r.0.term + r.1 == s
    ensures IsFirstLine(r.0.body, r.0.term, r.1)
    ensures s != [] ==> |r.0.body| + |r.0.term| > 0
  {
    var b := BreakFrom(s, 0);
    var body := s[..b];
    assert body == s[0..b];
    if b == |s| then
      assert body + "" + [] == s;
      (Line(body, ""), [])
    else if s[b] == '\r' && b + 1 < |s| && s[b + 1] == '\n' then
      assert s[b..b + 2] == "\r\n";
      assert body + s[b..b + 2] + s[b + 2..] == s;
      (Line(body, "\r\n"), s[b + 2..])
    else
      assert s[b..b + 1] == [s[b]];
      assert body + s[b..b + 1] + s[b + 1..] == s;
      (Line(body, [s[b]]), s[b + 1..])
  }

  /** A first line is found again by splitting: the split is the only one. */
  lemma SplitLineUnique(body: string, term: string, rest: string)
    requires IsFirstLine(body, term, rest)
    ensures SplitLine(body + term + rest) == (Line(body, term), rest)
  {
    var s := body + term + rest;
    assert s[0..|body|] == body;
    assert |body| < |s| ==> s[|body|] == term[0];
    BreakFromIs(s, 0, |body|);
    assert s[..|body|] == body;
    if term == "\r\n" {
      assert s[|body| + 1] == '\n';
      assert s[|body| + 2..] == rest;
    } else if term != "" {
      assert s[|body| + 1..] == rest;
    }
  }

  /** The end a line has once read: `\n`, `\r` and `\r\n` all come back as `\n`; the last line may have none. */
  function ReadEnd(term: string): string
  {
    if term == "" then "" else "\n"
  }

  /** Universal-newline translation of a whole text: every `\r\n` and every lone `\r` becomes `\n`. */
  function Translate(s: string): string
    decreases |s|
  {
    if s == [] then []
    else if s[0] == '\r' then "\n" + Translate(if |s| > 1 && s[1] == '\n' then s[2..] else s[1..])
    else [s[0]] + Translate(s[1..])
  }

  /** Text without breaks is left as it is by the translation. */
  lemma {:induction false} TranslateBody(body: string, x: string)
    requires NoBreaks(body)
    ensures Translate(body + x) == body + Translate(x)
    decreases |body|
  {
    if body != [] {
      var s := body + x;
      assert s[0] == body[0] && s[0] != '\r';
      assert s[1..] == body[1..] + x;
      assert Translate(s) == [s[0]] + Translate(s[1..]);
      TranslateBody(body[1..], x);
      assert body == [body[0]] + body[1..];
    } else {
      assert body + x == x;
    }
  }

  /** Translating a text translates its first line's terminator and leaves its body alone. */
  lemma TranslateFirstLine(body: string, term: string, rest: string)
    requires IsFirstLine(body, term, rest)
    ensures Translate(body + term + rest) == body + ReadEnd(term) + Translate(rest)
  {
    assert body + term + rest == body + (term + rest);
    TranslateBody(body, term + rest);
    var x := term + rest;
    if term == "\r\n" {
      assert x[0] == '\r' && x[1] == '\n' && x[2..] == rest;
    } else if term == "\r" {
      assert x[0] == '\r' && x[1..] == rest;
    } else if term == "\n" {
      assert x[0] == '\n' && x[1..] == rest;
    }
  }

  /**
   * `file.readlines()` on a file opened in text mode with the default
   * `newline=None`: the lines of the text, each ending in `\n` whatever its
   * terminator was, the last one possibly with none.
   */
  function Lines(s: string): (ls: seq<string>)
    ensures |s| > 0 <==> |ls| > 0
    decreases |s|
  {
    if s == [] then []
    else
      var (line, rest) := SplitLine(s);
      [line.body + ReadEnd(line.term)] + Lines(rest)
  }

  /** Concatenating the lines gives the text back. */
  function Concat(ls: seq<string>): string
  {
    if ls == [] then [] else ls[0] + Concat(ls[1..])
  }

  /** Joining the lines read gives the text with its newlines translated. */
  lemma {:induction false} LinesConcat(s: string)
    ensures Concat(Lines(s)) == Translate(s)
    decreases |s|
  {
    if s != [] {
      var (line, rest) := SplitLine(s);
      TranslateFirstLine(line.body, line.term, rest);
      var ls := Lines(s);
      assert ls[1..] == Lines(rest);
      LinesConcat(rest);
    }
  }

  /** A line read is non-empty, has no break before its last character, and any break it ends in is `\n`. */
  predicate ReadLineShaped(l: string)
  {
    && |l| > 0
    && NoBreaks(l[..|l| - 1])
    && (IsBreak(l[|l| - 1]) ==> l[|l| - 1] == '\n')
  }

  /** The first line read has that shape, and it ends in `\n` unless it is all that is left. */
  lemma FirstLineShaped(body: string, term: string, rest: string)
    requires IsFirstLine(body, term, rest) && |body| + |term| > 0
    ensures ReadLineShaped(body + ReadEnd(term))
    ensures rest != [] ==> (body + ReadEnd(term))[|body + ReadEnd(term)| - 1] == '\n'
  {
    var l := body + ReadEnd(term);
    if term == "" {
      assert l == body;
      assert l[..|l| - 1] == body[..|body| - 1];
    } else {
      assert l[..|l| - 1] == body;
      assert l[|l| - 1] == '\n';
    }
  }

  /**
   * Every line read is non-empty and has no break before its last character;
   * it ends in `\n` unless it is the last line, and no `\r` is left in it.
   */
  lemma {:induction false} LinesShaped(s: string, i: nat)
    requires i < |Lines(s)|
    ensures ReadLineShaped(Lines(s)[i])
    ensures i < |Lines(s)| - 1 ==> Lines(s)[i][|Lines(s)[i]| - 1] == '\n'
    decreases |s|
  {
    var (line, rest) := SplitLine(s);
    assert Lines(s) == [line.body + ReadEnd(line.term)] + Lines(rest);
    if i == 0 {
      FirstLineShaped(line.body, line.term, rest);
    } else {
      assert Lines(s)[i] == Lines(rest)[i - 1];
      LinesShaped(rest, i - 1);
    }
  }

  datatype Targets = Targets(a: int, k: int)

  /** The targets used when the file cannot be read or parsed. */
  const DefaultTargets := Targets(216, 22)

  /**
   * `read_target_values`: the stripped first and second lines as integers;
   * the defaults when the file is missing, has fewer than two lines, or either
   * line is not an integer.
   */
  function ReadTargetValues(file: Option<string>): (r: Targets)
    ensures file.None? ==> r == DefaultTargets
    ensures r != DefaultTargets ==>
      && file.Some? && |Lines(file.value)| >= 2
      && ParseInt(Strip(Lines(file.value)[0])) == Some(r.a)
      && ParseInt(Strip(Lines(file.value)[1])) == Some(r.k)
  {
    match file
    case None => DefaultTargets
    case Some(content) =>
      var lines := Lines(content);
      if |lines| < 2 then DefaultTargets
      else
        match (ParseInt(Strip(lines[0])), ParseInt(Strip(lines[1])))
        case (Some(a), Some(k)) => Targets(a, k)
        case _ => DefaultTargets
  }

  /** A digit or a minus sign is neither whitespace nor a line break. */
  lemma NumberCharShape(c: char)
    requires IsDigit(c) || c == '-'
    ensures !IsSpace(c) && !IsBreak(c)
  {
  }

  /** `str(i)` has no whitespace at either end and no line break. */
  lemma IntToStringShape(i: int)
    ensures Trimmed(IntToString(i)) && NoBreaks(IntToString(i))
  {
    var s := IntToString(i);
    var n := if i < 0 then s[1..] else s;
    assert AllDigits(n);
    forall j | 0 <= j < |s|
      ensures !IsSpace(s[j]) && !IsBreak(s[j])
    {
      if i < 0 && j > 0 {
        assert s[j] == n[j - 1];
      }
      NumberCharShape(s[j]);
    }
  }

  /** The line of a number followed by one terminator strips back to the number. */
  lemma StripNumberLine(i: int, term: string)
    requires IsTerminator(term)
    ensures Strip(IntToString(i) + term) == IntToString(i)
  {
    IntToStringShape(i);
    assert AllSpace(term) by {
      forall j | 0 <= j < |term|
        ensures IsSpace(term[j])
      {
      }
    }
    StripPadded(IntToString(i), term);
  }

  /** The line read for `str(i)` strips and converts back to `i`. */
  lemma NumberLineReads(i: int, e: string)
    requires e == "" || e == "\n"
    ensures ParseInt(Strip(IntToString(i) + e)) == Some(i)
  {
    StripNumberLine(i, e);
    ParseIntOfIntToString(i);
  }

  /** The first two lines of a text made of two complete lines and a tail. */
  lemma TwoLines(b0: string, t0: string, b1: string, t1: string, tail: string)
    requires IsFirstLine(b0, t0, b1 + t1 + tail) && IsFirstLine(b1, t1, tail)
    requires t0 != "" && |b1| + |t1| > 0
    ensures var ls := Lines(b0 + t0 + (b1 + t1 + tail));
      |ls| >= 2 && ls[0] == b0 + "\n" && ls[1] == b1 + ReadEnd(t1)
  {
    var rest := b1 + t1 + tail;
    SplitLineUnique(b0, t0, rest);
    SplitLineUnique(b1, t1, tail);
    var s := b0 + t0 + rest;
    assert Lines(s) == [b0 + "\n"] + Lines(rest);
    assert Lines(rest) == [b1 + ReadEnd(t1)] + Lines(tail);
  }

  /** Two lines that read as integers are the targets. */
  lemma ReadTargetsOfLines(content: string, a: int, k: int)
    requires |Lines(content)| >= 2
    requires ParseInt(Strip(Lines(content)[0])) == Some(a)
    requires ParseInt(Strip(Lines(content)[1])) == Some(k)
    ensures ReadTargetValues(Some(content)) == Targets(a, k)
  {
  }

  /** A text whose first two lines strip to integers sets the targets to them. */
  lemma ReadTwoNumbers(sa: string, t1: string, sk: string, t2: string, tail: string, a: int, k: int)
    requires IsFirstLine(sa, t1, sk + t2 + tail) && IsFirstLine(sk, t2, tail)
    requires t1 != "" && |sk| + |t2| > 0
    requires ParseInt(Strip(sa + "\n")) == Some(a) && ParseInt(Strip(sk + ReadEnd(t2))) == Some(k)
    ensures ReadTargetValues(Some(sa + t1 + (sk + t2 + tail))) == Targets(a, k)
  {
    TwoLines(sa, t1, sk, t2, tail);
    ReadTargetsOfLines(sa + t1 + (sk + t2 + tail), a, k);
  }

  /**
   * Writing both targets, one per line, and reading them back gives them
   * again, whatever terminators are used and whatever follows the second line.
   */
  lemma TargetsRoundTrip(a: int, k: int, t1: string, t2: string, tail: string)
    requires IsTerminator(t1) && t1 != ""
    requires IsTerminator(t2) && (t2 == "" ==> tail == [])
    requires t2 == "\r" ==> tail == [] || tail[0] != '\n'
    ensures ReadTargetValues(Some(IntToString(a) + t1 + IntToString(k) + t2 + tail)) == Targets(a, k)
  {
    var sa, sk := IntToString(a), IntToString(k);
    assert sa + t1 + (sk + t2 + tail) == sa + t1 + sk + t2 + tail;
    IntToStringShape(a);
    IntToStringShape(k);
    NumberLineReads(a, "\n");
    NumberLineReads(k, ReadEnd(t2));
    assert sk[0] != '\n';
    ReadTwoNumbers(sa, t1, sk, t2, tail, a, k);
  }

  /** A file holding a single line, with or without its terminator, gives the defaults. */
  lemma SingleLineGivesDefaults(body: string, term: string)
    requires IsFirstLine(body, term, [])
    ensures ReadTargetValues(Some(body + term)) == DefaultTargets
  {
    SplitLineUnique(body, term, []);
    assert body + term + [] == body + term;
    if body + term != [] {
      assert Lines(body + term) == [body + ReadEnd(term)] + Lines([]);
    }
  }

  /** A first line that is not an integer gives the defaults, whatever follows. */
  lemma MalformedFirstLineGivesDefaults(content: string)
    requires |Lines(content)| >= 1 && ParseInt(Strip(Lines(content)[0])).None?
    ensures ReadTargetValues(Some(content)) == DefaultTargets
  {
  }

  /** A second line that is not an integer gives the defaults too. */
  lemma MalformedSecondLineGivesDefaults(content: string)
    requires |Lines(content)| >= 2 && ParseInt(Strip(Lines(content)[1])).None?
    ensures ReadTargetValues(Some(content)) == DefaultTargets
  {
  }

  /** The file `100\n50\n` sets the targets to 100 and 50. */
  lemma TargetsExample()
    ensures ReadTargetValues(Some("100\n50\n")) == Targets(100, 50)
  {
    assert NatToString(10) == NatToString(1) + "0" == "10";
    assert NatToString(100) == NatToString(10) + "0" == "100";
    assert NatToString(50) == NatToString(5) + "0" == "50";
    assert "100\n50\n" == IntToString(100) + "\n" + IntToString(50) + "\n" + [];
    TargetsRoundTrip(100, 50, "\n", "\n", []);
  }

  /** The start and end of the achievement badge around the surplus. */
  const BadgeOpen := "<span style=\"white-space: nowrap;\">★"
  const BadgeClose := "件<img src=\"achievement.png\" style=\"width:6vw; height:6vw; vertical-align: middle;\"></span>"
  /** The counter word after a plain remainder. */
  const Unit := "件"

  /**
   * How a remainder (target minus total) is shown: a positive remainder as
   * the count still to go, otherwise the badge with the surplus `abs(r)`.
   */
  function RemainderDisplay(r: int): (s: string)
    ensures ShowsBadge(s) <==> r <= 0
  {
    if r <= 0 then
      var s := BadgeOpen + NatToString(-r) + BadgeClose;
      assert s[..|BadgeOpen|] == BadgeOpen;
      s
    else
      var s := NatToString(r) + Unit;
      assert s[0] == NatToString(r)[0];
      assert s[0] != BadgeOpen[0];
      s
  }

  predicate ShowsBadge(s: string)
  {
    |s| >= |BadgeOpen| && s[..|BadgeOpen|] == BadgeOpen
  }

  /** Reads a display back into the remainder it shows: the inverse of `RemainderDisplay`. */
  function ReadDisplay(s: string): (r: Option<int>)
    ensures r.Some? && ShowsBadge(s) ==> r.value <= 0
    ensures r.Some? && !ShowsBadge(s) ==> r.value > 0
  {
    if ShowsBadge(s) && |s| > |BadgeOpen| + |BadgeClose|
       && s[|s| - |BadgeClose|..] == BadgeClose
       && IsNatText(s[|BadgeOpen|..|s| - |BadgeClose|])
    then var surplus: int := Value(s[|BadgeOpen|..|s| - |BadgeClose|]); Some(-surplus)
    else if !ShowsBadge(s) && |s| > |Unit| && s[|s| - |Unit|..] == Unit
       && IsNatText(s[..|s| - |Unit|]) && Value(s[..|s| - |Unit|]) > 0
    then Some(Value(s[..|s| - |Unit|]))
    else None
  }

  /** Every remainder is read back from its display. */
  lemma DisplayRoundTrip(r: int)
    ensures ReadDisplay(RemainderDisplay(r)) == Some(r)
  {
    var s := RemainderDisplay(r);
    if r <= 0 {
      var n := NatToString(-r);
      assert s == BadgeOpen + n + BadgeClose;
      assert s[|s| - |BadgeClose|..] == BadgeClose;
      assert s[|BadgeOpen|..|s| - |BadgeClose|] == n;
    } else {
      var n := NatToString(r);
      assert s == n + Unit;
      assert s[|s| - |Unit|..] == Unit;
      assert s[..|s| - |Unit|] == n;
    }
  }

  /** Only displays are read: whatever reads as a remainder is exactly that remainder's display. */
  lemma ReadDisplayInverse(s: string)
    requires ReadDisplay(s).Some?
    ensures RemainderDisplay(ReadDisplay(s).value) == s
  {
    if ShowsBadge(s) {
      var n := s[|BadgeOpen|..|s| - |BadgeClose|];
      assert s == BadgeOpen + n + BadgeClose;
      NatToStringOfValue(n);
    } else {
      var n := s[..|s| - |Unit|];
      assert s == n + Unit;
      NatToStringOfValue(n);
    }
  }

  /** A count with a leading zero is not a display: `04件` and the badge with `04` read as nothing. */
  lemma PaddedDisplayRejected()
    ensures ReadDisplay("04" + Unit) == None
    ensures ReadDisplay(BadgeOpen + "04" + BadgeClose) == None
  {
    var s := BadgeOpen + "04" + BadgeClose;
    assert s[|BadgeOpen|..|s| - |BadgeClose|] == "04";
    var t := "04" + Unit;
    assert t[0] != BadgeOpen[0];
    assert t[..|t| - |Unit|] == "04";
  }

  /** The title suffixes of the weekly and the monthly page. */
  const WeekTitleSuffix := "w目標！"
  const MonthTitleSuffix := "月目標！"

  /** The page title: the week number on the weekly page, the month on the monthly one. */
  function Title(isWeek: bool, week: int, month: int): (t: string)
    ensures |t| > 4
    ensures isWeek ==> t[|t| - 4..] == WeekTitleSuffix
    ensures !isWeek ==> t[|t| - 4..] == MonthTitleSuffix
  {
    var n := IntToString(if isWeek then week else month);
    var t := n + (if isWeek then WeekTitleSuffix else MonthTitleSuffix);
    assert t[|n|..] == (if isWeek then WeekTitleSuffix else MonthTitleSuffix);
    t
  }

  /** Reads a title back into which page it names and its number: the inverse of `Title`. */
  function ReadTitle(t: string): (r: Option<(bool, int)>)
    ensures r.Some? ==> |t| > 4
  {
    if |t| > 4 && t[|t| - 4..] == WeekTitleSuffix then
      match ReadIntText(t[..|t| - 4])
      case Some(n) => Some((true, n))
      case None => None
    else if |t| > 4 && t[|t| - 4..] == MonthTitleSuffix then
      match ReadIntText(t[..|t| - 4])
      case Some(n) => Some((false, n))
      case None => None
    else None
  }

  /** Every title is read back: the page kind and the number it shows. */
  lemma TitleRoundTrip(isWeek: bool, week: int, month: int)
    ensures ReadTitle(Title(isWeek, week, month)) == Some((isWeek, if isWeek then week else month))
  {
    var n := IntToString(if isWeek then week else month);
    var t := Title(isWeek, week, month);
    assert t[..|t| - 4] == n;
    if !isWeek {
      assert t[|t| - 4] == '月' != WeekTitleSuffix[0];
    }
    ReadIntTextOfIntToString(if isWeek then week else month);
  }

  /** Only titles are read: whatever reads as a page kind and a number is exactly that title. */
  lemma ReadTitleInverse(t: string)
    requires ReadTitle(t).Some?
    ensures var (isWeek, n) := ReadTitle(t).value; Title(isWeek, n, n) == t
  {
    var n := t[..|t| - 4];
    assert t == n + t[|t| - 4..];
  }

  /** A signed or zero-padded number is not a title: `+5w目標！` and `05月目標！` read as nothing. */
  lemma NonCanonicalTitleRejected()
    ensures ReadTitle("+5" + WeekTitleSuffix) == None
    ensures ReadTitle("05" + MonthTitleSuffix) == None
  {
    var w := "+5" + WeekTitleSuffix;
    assert w[|w| - 4..] == WeekTitleSuffix && w[..|w| - 4] == "+5";
    var m := "05" + MonthTitleSuffix;
    assert m[|m| - 4..] == MonthTitleSuffix && m[..|m| - 4] == "05";
    assert m[|m| - 4] != WeekTitleSuffix[0];
  }

  /** The values `create_html_content` puts into the page. */
  datatype Document = Document(
    title: string,
    targets: Targets,
    akTotal: int,
    remainderA: int,
    remainderK: int,
    displayA: string,
    displayK: string)

  /**
   * `create_html_content(a_total, k_total, is_week)` on the day `now`, with
   * the target file's content: the remainders are what is left to reach the
   * targets, each display shows its remainder and carries the badge exactly
   * when the total reached its target, and the title names the current week
   * (weekly page) or month (monthly page).
   */
  function CreateHtmlContent(aTotal: int, kTotal: int, isWeek: bool, targetsFile: Option<string>, now: Date)
    : (doc: Document)
    requires Valid(now)
    ensures doc.targets == ReadTargetValues(targetsFile)
    ensures doc.akTotal == aTotal + kTotal
    ensures aTotal + doc.remainderA == doc.targets.a && kTotal + doc.remainderK == doc.targets.k
    ensures ReadDisplay(doc.displayA) == Some(doc.remainderA)
    ensures ReadDisplay(doc.displayK) == Some(doc.remainderK)
    ensures ShowsBadge(doc.displayA) <==> aTotal >= doc.targets.a
    ensures ShowsBadge(doc.displayK) <==> kTotal >= doc.targets.k
    ensures ReadTitle(doc.title) == Some((isWeek, if isWeek then WeekNumber(now) else now.month))
  {
    var targets := ReadTargetValues(targetsFile);
    var remainderA := targets.a - aTotal;
    var remainderK := targets.k - kTotal;
    DisplayRoundTrip(remainderA);
    DisplayRoundTrip(remainderK);
    TitleRoundTrip(isWeek, WeekNumber(now), now.month);
    Document(
      Title(isWeek, WeekNumber(now), now.month),
      targets,
      aTotal + kTotal,
      remainderA,
      remainderK,
      RemainderDisplay(remainderA),
      RemainderDisplay(remainderK))
  }

  /** A total of 220 against the default target 216 shows the badge with a surplus of 4. */
  lemma SurplusExample(kTotal: int, now: Date)
    requires Valid(now)
    ensures var doc := CreateHtmlContent(220, kTotal, true, None, now);
      doc.remainderA == -4 && doc.displayA == BadgeOpen + "4" + BadgeClose
  {
  }
}

=== FILE: decimal.dfy ===
/**
 * Decimal numerals as the script reads and writes them: `str(n)` of an
 * integer, `int(s)` of an already stripped line (ASCII digits after an
 * optional sign), the greedy digit run a regular expression `\d+` takes,
 * and the zero padding of `strftime`'s `%Y`, `%m` and `%d`.
 */
module Decimal {
  import opened Wrappers

  predicate IsDigit(c: char)
  {
    '0' <= c <= '9'
  }

  function DigitValue(c: char): (v: nat)
    requires IsDigit(c)
    ensures v < 10
  {
    (c as int) - ('0' as int)
  }

  function DigitChar(v: nat): (c: char)
    requires v < 10
    ensures IsDigit(c) && DigitValue(c) == v
  {
    ('0' as int + v) as char
  }

  predicate AllDigits(s: string)
  {
    forall k | 0 <= k < |s| :: IsDigit(s[k])
  }

  /** The number a string of digits spells, most significant digit first. */
  function Value(s: string): nat
    requires AllDigits(s)
  {
    if s == [] then 0 else Value(s[..|s| - 1]) * 10 + DigitValue(s[|s| - 1])
  }

  /** Digits as `str` writes a natural number: at least one, and no leading zero unless the number is 0. */
  predicate IsNatText(s: string)
  {
    |s| >= 1 && AllDigits(s) && (s[0] == '0' ==> |s| == 1)
  }

  /** `str(n)` for a non-negative integer: digits, no leading zero, spelling `n`. */
  function NatToString(n: nat): (s: string)
    ensures IsNatText(s)
    ensures Value(s) == n
    ensures s[0] == '0' <==> n == 0
    ensures n < 10 <==> |s| == 1
  {
    if n < 10 then
      [DigitChar(n)]
    else
      var front := NatToString(n / 10);
      var s := front + [DigitChar(n % 10)];
      assert s[..|s| - 1] == front;
      s
  }

  /** Two decimal digits suffice below one hundred. */
  lemma NatToStringBelowHundred(n: nat)
    requires n < 100
    ensures |NatToString(n)| <= 2
  {
    if n >= 10 {
      assert NatToString(n) == NatToString(n / 10) + [DigitChar(n % 10)];
    }
  }

  /** `str` is the only text without superfluous leading zeros that spells its number. */
  lemma {:induction false} NatToStringOfValue(s: string)
    requires IsNatText(s)
    ensures NatToString(Value(s)) == s
    decreases |s|
  {
    var last := s[|s| - 1];
    assert DigitChar(DigitValue(last)) == last;
    if |s| > 1 {
      var front := s[..|s| - 1];
      assert front[0] == s[0];
      NatToStringOfValue(front);
      var n := Value(s);
      assert n == Value(front) * 10 + DigitValue(last);
      assert n / 10 == Value(front) && n % 10 == DigitValue(last);
      assert NatToString(n) == NatToString(n / 10) + [DigitChar(n % 10)];
      assert s == front + [last];
    } else {
      assert s == [last];
    }
  }

  /** `str(i)` for any integer: a minus sign in front of the magnitude when negative. */
  function IntToString(i: int): (s: string)
    ensures |s| >= 1
    ensures i < 0 <==> s[0] == '-'
    ensures i >= 0 ==> s == NatToString(i)
    ensures i < 0 ==> s[1..] == NatToString(-i)
  {
    if i < 0 then "-" + NatToString(-i) else NatToString(i)
  }

  /** Reads exactly the texts `str` writes for an integer: the inverse of `IntToString`. */
  function ReadIntText(s: string): (r: Option<int>)
    ensures r.Some? ==> IntToString(r.value) == s
  {
    if |s| >= 2 && s[0] == '-' && IsNatText(s[1..]) && s[1] != '0' then
      NatToStringOfValue(s[1..]);
      assert s == "-" + s[1..];
      var magnitude: int := Value(s[1..]);
      Some(-magnitude)
    else if IsNatText(s) then
      NatToStringOfValue(s);
      Some(Value(s))
    else None
  }

  /** What `str` writes for an integer is read back as that integer. */
  lemma ReadIntTextOfIntToString(i: int)
    ensures ReadIntText(IntToString(i)) == Some(i)
  {
    var s := IntToString(i);
    if i < 0 {
      assert s[1..] == NatToString(-i);
    }
  }

  /** `int(s)` on a stripped string: an optional `+` or `-`, then at least one ASCII digit. */
  function ParseInt(s: string): (r: Option<int>)
    ensures r.Some? ==> s != [] && (s[0] == '-' || s[0] == '+' || IsDigit(s[0]))
  {
    if s != [] && (s[0] == '-' || s[0] == '+') then
      if |s| > 1 && AllDigits(s[1..]) then
        var magnitude: int := Value(s[1..]);
        Some(if s[0] == '-' then -magnitude else magnitude)
      else None
    else if s != [] && AllDigits(s) then
      Some(Value(s))
    else None
  }

  /** Reading back what `str` wrote gives the same integer. */
  lemma ParseIntOfIntToString(i: int)
    ensures ParseInt(IntToString(i)) == Some(i)
  {
    var s := IntToString(i);
    if i < 0 {
      assert s[1..] == NatToString(-i);
    } else {
      assert IsDigit(s[0]);
    }
  }

  /** An optional sign followed by digits reads as their value, negated after `-`; leading zeros are allowed. */
  lemma ParseIntOfDigits(sign: string, digits: string)
    requires sign == "" || sign == "+" || sign == "-"
    requires digits != [] && AllDigits(digits)
    ensures var v: int := Value(digits); ParseInt(sign + digits) == Some(if sign == "-" then -v else v)
  {
    var s := sign + digits;
    if sign == "" {
      assert s == digits;
      assert IsDigit(s[0]);
    } else {
      assert s[1..] == digits;
    }
  }

  /** Only such texts are accepted: what `int()` reads is an optional sign and then digits. */
  lemma ParseIntShape(s: string)
    requires ParseInt(s).Some?
    ensures var k := if s[0] == '+' || s[0] == '-' then 1 else 0;
      && k < |s| && AllDigits(s[k..])
      && var v: int := Value(s[k..]); ParseInt(s) == Some(if s[0] == '-' then -v else v)
  {
    assert s[0..] == s;
  }

  /** `int("+7")`, `int("007")` and `int("-0")`. */
  lemma ParseIntExamples()
    ensures ParseInt("+7") == Some(7)
    ensures ParseInt("007") == Some(7)
    ensures ParseInt("-0") == Some(0)
  {
    assert Value("7") == 7;
    assert Value("0") == 0;
    assert Value("00") == 0 by { assert "00"[..1] == "0"; }
    assert Value("007") == 7 by { assert "007"[..2] == "00"; }
    ParseIntOfDigits("+", "7");
    ParseIntOfDigits("", "007");
    ParseIntOfDigits("-", "0");
    assert "+" + "7" == "+7";
    assert "" + "007" == "007";
    assert "-" + "0" == "-0";
  }

  function Zeros(k: nat): (z: string)
    ensures |z| == k && AllDigits(z)
    ensures forall i | 0 <= i < k :: z[i] == '0'
  {
    if k == 0 then [] else Zeros(k - 1) + ['0']
  }

  /** Left-pad a digit string with zeros to at least `width` characters. */
  function ZeroPad(s: string, width: nat): (r: string)
    requires AllDigits(s)
    ensures AllDigits(r)
    ensures |r| == if |s| < width then width else |s|
    ensures Value(r) == Value(s)
  {
    if |s| < width then
      LeadingZeros(width - |s|, s);
      Zeros(width - |s|) + s
    else s
  }

  lemma {:induction false} ZerosValue(k: nat)
    ensures Value(Zeros(k)) == 0
  {
    if k > 0 {
      assert Zeros(k)[..k - 1] == Zeros(k - 1);
      ZerosValue(k - 1);
    }
  }

  /** Leading zeros do not change the number a digit string spells. */
  lemma {:induction false} LeadingZeros(k: nat, s: string)
    requires AllDigits(s)
    ensures AllDigits(Zeros(k) + s) && Value(Zeros(k) + s) == Value(s)
  {
    var z := Zeros(k);
    if s == [] {
      assert z + s == z;
      ZerosValue(k);
    } else {
      var front := s[..|s| - 1];
      assert (z + s)[..|z + s| - 1] == z + front;
      LeadingZeros(k, front);
    }
  }

  /** Where the significant digits of a digit string start: past its superfluous leading zeros. */
  function SignificantFrom(s: string): (k: nat)
    requires |s| >= 1 && AllDigits(s)
    ensures k < |s| && IsNatText(s[k..])
    ensures forall i | 0 <= i < k :: s[i] == '0'
    decreases |s|
  {
    if s[0] == '0' && |s| > 1 then
      var k := 1 + SignificantFrom(s[1..]);
      assert s[1..][k - 1..] == s[k..];
      k
    else 0
  }

  /** Every digit string is `str` of its value, zero-padded to its own length. */
  lemma PaddedValue(s: string)
    requires |s| >= 1 && AllDigits(s)
    ensures ZeroPad(NatToString(Value(s)), |s|) == s
  {
    var k := SignificantFrom(s);
    var c := s[k..];
    assert forall i | 0 <= i < |s| :: s[i] == (Zeros(k) + c)[i];
    assert s == Zeros(k) + c;
    LeadingZeros(k, c);
    NatToStringOfValue(c);
  }

  /** The end of the run of digits that starts at `j`, as a greedy `\d+` takes it. */
  function DigitRunEnd(s: string, j: nat): (e: nat)
    requires j <= |s|
    ensures j <= e <= |s|
    ensures AllDigits(s[j..e])
    ensures e == |s| || !IsDigit(s[e])
    decreases |s| - j
  {
    if j < |s| && IsDigit(s[j]) then
      var e := DigitRunEnd(s, j + 1);
      assert s[j..e] == [s[j]] + s[j + 1..e];
      e
    else j
  }
}

=== FILE: oguchi.dfy ===
/**
 * The booking-calendar extractor `get_oguchi_value`. The month page is the
 * sequence of its table cells in document order, each with the `href`s of
 * the links inside it and its reservation labels (the links directly inside
 * a paragraph whose class starts with `rest`), a label being the pair of its
 * `innerText` and `outerHTML`. For the seven days from the Monday of the
 * current week, the first cell linking to that day's `YYYY-MM-DD` is looked
 * up and its labels are classified.
 */
module OguchiCount {
  import opened Wrappers
  import opened Calendar
  import opened Text

  datatype Label = Label(innerText: string, outerHtml: string)

  datatype DayCell = DayCell(hrefs: seq<string>, labels: seq<Label>)

  /** The keywords that make a reservation a large booking. */
  const Keywords: seq<string> := ["包", "大", "長", "非長", "陰大"]

  /** `any(k in text for k in [...])` over the keywords. */
  predicate HasKeyword(text: string)
  {
    exists k | 0 <= k < |Keywords| :: Contains(text, Keywords[k])
  }

  /** The two `continue` rules: a check-up-only or ED-only label. */
  predicate Skipped(text: string)
  {
    || (Contains(text, "術検") && !HasKeyword(text))
    || (Contains(text, "ED") && !HasKeyword(text))
  }

  /** The label adds one to the gross count. */
  predicate CountsGross(l: Label)
  {
    !Skipped(l.innerText) && HasKeyword(l.innerText)
  }

  /** The label adds one to the excluded count: its markup has the remote icon. */
  predicate CountsExcluded(l: Label)
  {
    !Skipped(l.innerText) && Contains(l.outerHtml, "fa fa-wifi")
  }

  function GrossCount(ls: seq<Label>): nat
  {
    if ls == [] then 0
    else GrossCount(ls[..|ls| - 1]) + (if CountsGross(ls[|ls| - 1]) then 1 else 0)
  }

  function ExcludedCount(ls: seq<Label>): nat
  {
    if ls == [] then 0
    else ExcludedCount(ls[..|ls| - 1]) + (if CountsExcluded(ls[|ls| - 1]) then 1 else 0)
  }

  function SkippedCount(ls: seq<Label>): nat
  {
    if ls == [] then 0
    else SkippedCount(ls[..|ls| - 1]) + (if Skipped(ls[|ls| - 1].innerText) then 1 else 0)
  }

  /** A skipped label adds to neither count, even when its markup has the remote icon. */
  lemma SkippedAddsNothing(ls: seq<Label>, l: Label)
    requires Skipped(l.innerText)
    ensures GrossCount(ls + [l]) == GrossCount(ls)
    ensures ExcludedCount(ls + [l]) == ExcludedCount(ls)
  {
    assert (ls + [l])[..|ls|] == ls;
  }

  /** Labels holding a keyword, whatever else they hold. */
  function KeywordCount(ls: seq<Label>): nat
  {
    if ls == [] then 0
    else KeywordCount(ls[..|ls| - 1]) + (if HasKeyword(ls[|ls| - 1].innerText) then 1 else 0)
  }

  /** Both counts split over any division of the labels. */
  lemma {:induction false} CountsAppend(a: seq<Label>, b: seq<Label>)
    ensures GrossCount(a + b) == GrossCount(a) + GrossCount(b)
    ensures ExcludedCount(a + b) == ExcludedCount(a) + ExcludedCount(b)
    decreases |b|
  {
    if b == [] {
      assert a + b == a;
    } else {
      var b' := b[..|b| - 1];
      assert (a + b)[..|a + b| - 1] == a + b';
      CountsAppend(a, b');
    }
  }

  /**
   * The skip rule never drops a label that holds a keyword, so the gross count
   * is the number of labels with a keyword.
   */
  lemma {:induction false} GrossIsKeywordCount(ls: seq<Label>)
    ensures GrossCount(ls) == KeywordCount(ls)
  {
    if ls != [] {
      GrossIsKeywordCount(ls[..|ls| - 1]);
    }
  }

  /**
   * A skipped label counts toward neither total; so each total, plus the
   * skipped labels, is at most the number of labels scanned.
   */
  lemma {:induction false} CountsBounded(ls: seq<Label>)
    ensures GrossCount(ls) + SkippedCount(ls) <= |ls|
    ensures ExcludedCount(ls) + SkippedCount(ls) <= |ls|
  {
    if ls != [] {
      CountsBounded(ls[..|ls| - 1]);
    }
  }

  /** `非長` and `陰大` add nothing: a keyword is present exactly when `包`, `大` or `長` is. */
  lemma KeywordsReduce(text: string)
    ensures HasKeyword(text) <==> Contains(text, "包") || Contains(text, "大") || Contains(text, "長")
  {
    if Contains(text, "非長") {
      assert "非長" == "非" + "長";
      ContainsParts(text, "非", "長");
    }
    if Contains(text, "陰大") {
      assert "陰大" == "陰" + "大";
      ContainsParts(text, "陰", "大");
    }
    if Contains(text, "包") { assert Contains(text, Keywords[0]); }
    if Contains(text, "大") { assert Contains(text, Keywords[1]); }
    if Contains(text, "長") { assert Contains(text, Keywords[2]); }
  }

  /** Some link of the cell has an `href` containing `date`. */
  predicate LinksTo(cell: DayCell, date: string)
  {
    exists h | h in cell.hrefs :: Contains(h, date)
  }

  /** A text made only of characters other than `c` contains no pattern that has `c` at index 0. */
  lemma LacksFirstChar(text: string, sub: string)
    requires |sub| > 0 && forall j | 0 <= j < |text| :: text[j] != sub[0]
    ensures !Contains(text, sub)
  {
    NotContainsChar(text, sub, 0);
  }

  /** A remote first visit: `初診` with the wifi icon in its markup. */
  const RemoteVisit := Label("初診", "<a><i class=\"fa fa-wifi\"></i>初診</a>")

  /** A large booking (`大`) without the icon. */
  const LargeBooking := Label("大", "<a>大</a>")

  /** A bare check-up (`術検`). */
  const CheckUp := Label("術検", "<a>術検</a>")

  /** The markup of a remote first visit holds the remote icon. */
  lemma RemoteMarkup()
    ensures Contains(RemoteVisit.outerHtml, "fa fa-wifi")
  {
    assert RemoteVisit.outerHtml == "<a><i class=\"" + "fa fa-wifi" + "\"></i>初診</a>";
    ContainsInside("<a><i class=\"", "fa fa-wifi", "\"></i>初診</a>");
  }

  /** A remote first visit is excluded and not gross. */
  lemma RemoteVisitLabel()
    ensures !CountsGross(RemoteVisit) && CountsExcluded(RemoteVisit)
  {
    NoKeywordNoMarker();
    RemoteMarkup();
  }

  /** A large booking without the icon is gross and not excluded. */
  lemma LargeBookingLabel()
    ensures CountsGross(LargeBooking) && !CountsExcluded(LargeBooking)
  {
    var text := LargeBooking.innerText;
    assert OccursAt(text, Keywords[1], 0);
    assert HasKeyword(text);
    LacksFirstChar(LargeBooking.outerHtml, "fa fa-wifi");
  }

  /** A bare check-up is skipped. */
  lemma CheckUpLabel()
    ensures Skipped(CheckUp.innerText) && !CountsGross(CheckUp) && !CountsExcluded(CheckUp)
  {
    var text := CheckUp.innerText;
    assert OccursAt(text, "術検", 0);
    forall k | 0 <= k < |Keywords|
      ensures !Contains(text, Keywords[k])
    {
      LacksFirstChar(text, Keywords[k]);
    }
  }

  /** `初診` holds no keyword and neither skip marker. */
  lemma NoKeywordNoMarker()
    ensures !HasKeyword(RemoteVisit.innerText) && !Skipped(RemoteVisit.innerText)
  {
    var text := RemoteVisit.innerText;
    forall k | 0 <= k < |Keywords|
      ensures !Contains(text, Keywords[k])
    {
      LacksFirstChar(text, Keywords[k]);
    }
    LacksFirstChar(text, "術検");
    LacksFirstChar(text, "ED");
  }

  /** A label with neither a keyword nor a skip marker but with the remote icon: the net goes negative. */
  lemma NetCanBeNegative()
    ensures GrossCount([RemoteVisit]) == 0 && ExcludedCount([RemoteVisit]) == 1
    ensures GrossCount([RemoteVisit]) - ExcludedCount([RemoteVisit]) == -1
  {
    var ls := [RemoteVisit];
    RemoteVisitLabel();
    assert ls[..0] == [];
  }

  /**
   * A day with a large booking, a bare check-up (skipped) and a remote first
   * visit: one gross, one excluded, net zero.
   */
  lemma MixedDayExample()
    ensures GrossCount([LargeBooking, CheckUp, RemoteVisit]) == 1
    ensures ExcludedCount([LargeBooking, CheckUp, RemoteVisit]) == 1
  {
    var ls := [LargeBooking, CheckUp, RemoteVisit];
    LargeBookingLabel();
    CheckUpLabel();
    RemoteVisitLabel();
    assert ls[..2][..1][..0] == [];
    assert GrossCount(ls[..2][..1]) == 1 && ExcludedCount(ls[..2][..1]) == 0;
    assert GrossCount(ls[..2]) == 1 && ExcludedCount(ls[..2]) == 0;
  }

  /** The index of the first cell from `from` on with a link to `date`, or `|page|` when there is none. */
  function FirstLinking(page: seq<DayCell>, date: string, from: nat): (i: nat)
    requires from <= |page|
    ensures from <= i <= |page|
    ensures i < |page| ==> LinksTo(page[i], date)
    ensures forall j | from <= j < i :: !LinksTo(page[j], date)
    decreases |page| - from
  {
    if from == |page| || LinksTo(page[from], date) then from
    else FirstLinking(page, date, from + 1)
  }

  /**
   * `driver.find_element(By.XPATH, "//td[.//a[contains(@href, date)]]")`: the
   * first cell, in document order, with a link whose `href` contains `date`;
   * none exactly when no cell has one.
   */
  function FindCell(page: seq<DayCell>, date: string): (r: Option<DayCell>)
    ensures r.None? <==> forall c | c in page :: !LinksTo(c, date)
    ensures r.Some? ==>
      exists i | 0 <= i < |page| ::
        page[i] == r.value && LinksTo(page[i], date) && forall j | 0 <= j < i :: !LinksTo(page[j], date)
  {
    var i := FirstLinking(page, date, 0);
    if i < |page| then
      assert page[i] in page;
      Some(page[i])
    else
      assert forall c | c in page :: exists j | 0 <= j < |page| :: page[j] == c;
      None
  }

  /** `range(7)`: Monday to Sunday. */
  const DaysInWeek: nat := 7

  /** `monday + timedelta(days=k)`. */
  function DayOfWeek(monday: Date, k: nat): (d: Date)
    requires Valid(monday) && k < DaysInWeek
    ensures Valid(d) && Ordinal(d) == Ordinal(monday) + k
  {
    OrdinalPositive(monday);
    AddDays(monday, k)
  }

  /** The `YYYY-MM-DD` texts of the seven days from `monday`, which the cells are looked up by. */
  function WeekDates(monday: Date): (dates: seq<string>)
    requires Valid(monday)
    ensures |dates| == DaysInWeek
    ensures forall k | 0 <= k < DaysInWeek :: dates[k] == IsoDate(DayOfWeek(monday, k))
  {
    seq(DaysInWeek, k requires 0 <= k < DaysInWeek => IsoDate(DayOfWeek(monday, k)))
  }

  /** The seven dates are seven different days, so no day is looked up twice. */
  lemma WeekDatesDistinct(monday: Date, j: nat, k: nat)
    requires Valid(monday) && j < k < DaysInWeek
    ensures WeekDates(monday)[j] != WeekDates(monday)[k]
  {
    var dj := DayOfWeek(monday, j);
    var dk := DayOfWeek(monday, k);
    IsoDateRoundTrip(dj);
    IsoDateRoundTrip(dk);
    assert dj != dk;
  }

  /** The labels scanned for the day written `date`; none when no cell links to it. */
  function DayLabels(page: seq<DayCell>, date: string): seq<Label>
  {
    match FindCell(page, date)
    case None => []
    case Some(cell) => cell.labels
  }

  /** The labels of the first `days` dates, in order. */
  function WeekLabels(page: seq<DayCell>, dates: seq<string>, days: nat): seq<Label>
    requires days <= |dates|
  {
    if days == 0 then [] else WeekLabels(page, dates, days - 1) + DayLabels(page, dates[days - 1])
  }

  /** Adding a day adds the counts of its own labels. */
  lemma WeekCountsStep(page: seq<DayCell>, dates: seq<string>, k: nat)
    requires k < |dates|
    ensures GrossCount(WeekLabels(page, dates, k + 1))
      == GrossCount(WeekLabels(page, dates, k)) + GrossCount(DayLabels(page, dates[k]))
    ensures ExcludedCount(WeekLabels(page, dates, k + 1))
      == ExcludedCount(WeekLabels(page, dates, k)) + ExcludedCount(DayLabels(page, dates[k]))
  {
    CountsAppend(WeekLabels(page, dates, k), DayLabels(page, dates[k]));
  }

  /** The counts of one day's labels, added to `gross` and `excluded` as the script does. */
  method ScanLabels(labels: seq<Label>, gross0: int, excluded0: int) returns (gross: int, excluded: int)
    ensures gross == gross0 + GrossCount(labels)
    ensures excluded == excluded0 + ExcludedCount(labels)
  {
    gross, excluded := gross0, excluded0;
    for j := 0 to |labels|
      invariant gross == gross0 + GrossCount(labels[..j])
      invariant excluded == excluded0 + ExcludedCount(labels[..j])
    {
      assert labels[..j + 1][..j] == labels[..j];
      var text := labels[j].innerText;
      var outerHtml := labels[j].outerHtml;
      if Contains(text, "術検") && !HasKeyword(text) {
        continue;
      }
      if Contains(text, "ED") && !HasKeyword(text) {
        continue;
      }
      if HasKeyword(text) {
        gross := gross + 1;
      }
      if Contains(outerHtml, "fa fa-wifi") {
        excluded := excluded + 1;
      }
    }
    assert labels[..|labels|] == labels;
  }

  /**
   * One pass of the day loop: the first cell linking to `date` has its labels
   * scanned; when there is none the day is passed over.
   */
  method ScanDay(page: seq<DayCell>, date: string, gross0: int, excluded0: int)
      returns (gross: int, excluded: int)
    ensures gross == gross0 + GrossCount(DayLabels(page, date))
    ensures excluded == excluded0 + ExcludedCount(DayLabels(page, date))
    ensures FindCell(page, date).None? ==> gross == gross0 && excluded == excluded0
  {
    var cell := FindCell(page, date);
    if cell.None? {
      return gross0, excluded0;
    }
    gross, excluded := ScanLabels(cell.value.labels, gross0, excluded0);
  }

  /** The day loop of `get_oguchi_value`, over the dates of the week in order. */
  method CountWeek(page: seq<DayCell>, dates: seq<string>) returns (gross: int, excluded: int)
    ensures gross == GrossCount(WeekLabels(page, dates, |dates|))
    ensures excluded == ExcludedCount(WeekLabels(page, dates, |dates|))
  {
    gross, excluded := 0, 0;
    for day := 0 to |dates|
      invariant gross == GrossCount(WeekLabels(page, dates, day))
      invariant excluded == ExcludedCount(WeekLabels(page, dates, day))
    {
      WeekCountsStep(page, dates, day);
      gross, excluded := ScanDay(page, dates[day], gross, excluded);
    }
  }

  /**
   * `get_oguchi_value(driver, page_url)` with the loaded page given as data:
   * the gross and excluded counts over the labels of the week holding "now",
   * and their difference, which is not clamped at zero.
   */
  method GetOguchiValue(page: seq<DayCell>, now: Date) returns (gross: int, excluded: int, net: int)
    requires Valid(now)
    ensures var labels := WeekLabels(page, WeekDates(CurrentWeekRange(now).monday), DaysInWeek);
      && gross == GrossCount(labels)
      && excluded == ExcludedCount(labels)
      && net == gross - excluded
  {
    var monday := CurrentWeekRange(now).monday;
    gross, excluded := CountWeek(page, WeekDates(monday));
    net := gross - excluded;
  }
}

=== FILE: text.dfy ===
/**
 * String helpers with Python's meaning: the `in` operator on two strings,
 * the characters `str.isspace` accepts, and `str.strip()` with no argument.
 */
module Text {

  /** The window of `s` starting at `i` spells `sub`. */
  predicate OccursAt(s: string, sub: string, i: int)
  {
    0 <= i <= |s| - |sub| && s[i..i + |sub|] == sub
  }

  /** Python's `sub in s`: some window of `s` spells `sub`. */
  predicate Contains(s: string, sub: string)
  {
    exists i | 0 <= i <= |s| - |sub| :: OccursAt(s, sub, i)
  }

  /** A string that contains `p + q` contains `p` and contains `q`. */
  lemma ContainsParts(s: string, p: string, q: string)
    requires Contains(s, p + q)
    ensures Contains(s, p) && Contains(s, q)
  {
    var i :| 0 <= i <= |s| - |p + q| && OccursAt(s, p + q, i);
    assert s[i..i + |p|] == (p + q)[..|p|] == p;
    assert s[i + |p|..i + |p| + |q|] == (p + q)[|p|..] == q;
    assert OccursAt(s, p, i) && OccursAt(s, q, i + |p|);
  }

  /** A pattern placed between two strings is contained in the result. */
  lemma ContainsInside(a: string, sub: string, b: string)
    ensures OccursAt(a + sub + b, sub, |a|)
    ensures Contains(a + sub + b, sub)
  {
    assert (a + sub + b)[|a|..|a| + |sub|] == sub;
    assert OccursAt(a + sub + b, sub, |a|);
  }

  /** A string without the character `c` contains no pattern that has `c` in it. */
  lemma NotContainsChar(s: string, sub: string, k: nat)
    requires k < |sub|
    requires forall j | 0 <= j < |s| :: s[j] != sub[k]
    ensures !Contains(s, sub)
  {
    forall i | 0 <= i <= |s| - |sub|
      ensures !OccursAt(s, sub, i)
    {
      assert s[i..i + |sub|][k] != sub[k];
    }
  }

  /** The characters for which Python's `str.isspace()` holds. */
  predicate IsSpace(c: char)
  {
    || c == ' '
    || ('\t' <= c <= '\r')
    || ('\U{1C}' <= c <= '\U{1F}')
    || c == '\U{85}' || c == '\U{A0}' || c == '\U{1680}'
    || ('\U{2000}' <= c <= '\U{200A}')
    || c == '\U{2028}' || c == '\U{2029}' || c == '\U{202F}' || c == '\U{205F}'
    || c == '\U{3000}'
  }

  predicate AllSpace(s: string)
  {
    forall k | 0 <= k < |s| :: IsSpace(s[k])
  }

  /** Neither end of `s` is whitespace (vacuously true of the empty string). */
  predicate Trimmed(s: string)
  {
    s == [] || (!IsSpace(s[0]) && !IsSpace(s[|s| - 1]))
  }

  /** `s.lstrip()`: what is left after the leading whitespace is dropped. */
  function StripLeading(s: string): (r: string)
    ensures |r| <= |s| && r == s[|s| - |r|..]
    ensures AllSpace(s[..|s| - |r|])
    ensures r == [] || !IsSpace(r[0])
  {
    if s != [] && IsSpace(s[0]) then
      var r := StripLeading(s[1..]);
      assert s[..|s| - |r|] == [s[0]] + s[1..][..|s| - 1 - |r|];
      r
    else s
  }

  /** `s.rstrip()`: what is left after the trailing whitespace is dropped. */
  function StripTrailing(s: string): (r: string)
    ensures |r| <= |s| && r == s[..|r|]
    ensures AllSpace(s[|r|..])
    ensures r == [] || !IsSpace(r[|r| - 1])
  {
    if s != [] && IsSpace(s[|s| - 1]) then
      var r := StripTrailing(s[..|s| - 1]);
      assert s[|r|..] == s[..|s| - 1][|r|..] + [s[|s| - 1]];
      r
    else s
  }

  /** A suffix after whitespace, cut before more whitespace, is a middle slice between whitespace margins. */
  lemma MiddleSlice(s: string, left: string, r: string)
    requires |left| <= |s| && left == s[|s| - |left|..] && AllSpace(s[..|s| - |left|])
    requires |r| <= |left| && r == left[..|r|] && AllSpace(left[|r|..])
    ensures exists i, j :: 0 <= i <= j <= |s| && r == s[i..j] && AllSpace(s[..i]) && AllSpace(s[j..])
  {
    var i := |s| - |left|;
    var j := i + |r|;
    assert r == s[i..j];
    assert s[j..] == left[|r|..];
  }

  /** `s.strip()`: the middle of `s` between whitespace-only margins, itself trimmed. */
  function Strip(s: string): (r: string)
    ensures Trimmed(r)
    ensures exists i, j :: 0 <= i <= j <= |s| && r == s[i..j] && AllSpace(s[..i]) && AllSpace(s[j..])
  {
    var left := StripLeading(s);
    var r := StripTrailing(left);
    MiddleSlice(s, left, r);
    assert r != [] ==> r[0] == left[0];
    r
  }

  /** Stripping a trimmed string padded with whitespace on the right gives it back. */
  lemma {:induction false} StripPadded(s: string, w: string)
    requires Trimmed(s) && AllSpace(w)
    ensures Strip(s + w) == s
  {
    var left := StripLeading(s + w);
    if s == [] {
      assert AllSpace(s + w);
      StripAllSpace(s + w);
    } else {
      assert (s + w)[0] == s[0];
      assert left == s + w;
      StripTrailingPadded(s, w);
    }
  }

  lemma {:induction false} StripAllSpace(s: string)
    requires AllSpace(s)
    ensures StripLeading(s) == []
  {
    if s != [] {
      StripAllSpace(s[1..]);
    }
  }

  lemma {:induction false} StripTrailingPadded(s: string, w: string)
    requires s != [] && !IsSpace(s[|s| - 1]) && AllSpace(w)
    ensures StripTrailing(s + w) == s
    decreases |w|
  {
    if w == [] {
      assert s + w == s;
    } else {
      var w' := w[..|w| - 1];
      assert (s + w)[..|s + w| - 1] == s + w';
      StripTrailingPadded(s, w');
    }
  }
}

=== FILE: wrappers.dfy ===
/** The optional value used wherever the script either finds something or falls through. */
module Wrappers {

  datatype Option<+T> = None | Some(value: T)
}
